=== FILE: README.md ===
# PixelBot core, modelled in Dafny

PixelBot is a Discord bot backed by PostgreSQL. It stores each member's
access and refresh tokens, lets administrators invalidate them, reports
statistics and cleans up idle private chats. It also runs image votes whose
tallies a background poller re-reads from the ✅ reactions. This project
models the logic of that bot as pure functions over values:

- **Token table** (`TokenService`). The `user_tokens` table is a
  `map<int, TokenRow>` keyed by `discord_user_id`, which carries the column's
  UNIQUE constraint.
  - `nextId` is the SERIAL sequence.
  - `online` says whether the database can be reached; when it is false,
    every call takes its error path.
  - `now` is CURRENT_TIMESTAMP, in seconds on a logical clock.
  - Each service method maps the store and its arguments to the new store
    and the method's result.
  - The command tags PostgreSQL returns ("DELETE n", "UPDATE n") are built
    and parsed explicitly (`CommandTag`).
- **Row model** (`Models`): `UserToken`'s constructor defaults, `from_db`,
  `to_dict` and `is_complete`.
- **Admin cog** (`AdminCommands`). The administrator check sits in front of
  every command. Covered: `/invalidate-all` with its confirmation word and
  its parsing of the affected-row count; `/stats`, with the raw aggregate
  row and the last-24-hours listing; `/clean-chats`, with its whole-day
  inactivity rule and the error raised by a channel whose history cannot be
  read or whose deletion fails.
- **Tokens cog** (`TokenCommands`): the private-chat gate in front of the
  service, and the reply chosen from the service's result.
- **Vote poller** (`VoteService`). One firing of `update_vote_counts` takes
  the `votes` rows (in scan order) and a snapshot of the platform. For each
  channel, the snapshot says whether fetching a message returns its
  reactions, raises NotFound or raises another error. `create_vote` comes
  with the outcome of each platform call it makes.
- **Votes cog** (`VoteCommands`): the order in which `/create_vote` checks
  its attachments, and the `/vote_stats` ranking.
- **Helpers** (`Helpers`): `normalize_channel_name`, `is_private_chat`, and
  the `chat-` name given to a member's private channel.
- **Configuration** (`Configuration`): the `${NAME}` substitution over the
  YAML tree (`Values.Value`), with the environment as a map, and
  `Config.__getattr__`.

Two readings of the code that matter:

- `get_user_tokens` only catches `asyncpg.PostgresError`. If the server
  cannot be reached, the error propagates instead of becoming `None`, so
  `GetUserTokens` has a third outcome, `Raised`.
- `/stats` prints the SQL aggregate as fetched. On an empty table the two
  SUM columns are NULL. `get_tokens_stats`, by contrast, turns them into 0
  with `or 0`. Both behaviours are modelled, as `Aggregate`/`Stats` and as
  `GetTokensStats`.

Beyond the code, the model states and proves these properties:

- the upsert contracts of the token service;
- that invalidating twice is a no-op;
- that the literal poller pass (select the active votes, then update by id)
  agrees row by row with a pointwise reference definition when ids are
  unique;
- that environment substitution commutes with attribute lookup;
- that channel-name normalisation is idempotent and never lengthens its
  input.

## Model

| member | source | states |
|---|---|---|
| `TokenService.Varchar` | src/database/database.py:43-44 | A token holding a NUL character is refused, as PostgreSQL refuses NUL in text. Otherwise a token longer than 255 characters is refused unless everything past the limit is spaces, in which case it is cut to 255. Anything stored fits the column and holds no NUL. |
| `TokenService.GetUserTokens` | src/services/token_service.py:23-39 | Returns the row stored under the user's id, or no row. When the server is unreachable the error propagates, since only PostgresError is caught. |
| `TokenService.UpdateAccessToken` | src/services/token_service.py:52-70 | Succeeds iff the database is reachable and the column accepts the token (no NUL; the length rule of `Varchar`). An absent user gets a new row (next id, the token, refresh token "", valid, both timestamps now). An existing row changes only its access token and update time. No other user changes, and well-formedness is kept. |
| `TokenService.UpdateRefreshToken` | src/services/token_service.py:83-101 | The mirror image: it succeeds iff the database is reachable and the column accepts the token. An insert has access token "", and a conflict changes only the refresh token and update time. Other users are untouched. |
| `TokenService.UpdateTokens` | src/services/token_service.py:120-140 | Succeeds iff the database is reachable and both columns accept their tokens. On success the user has exactly one row, holding both tokens, valid, updated now. An existing row keeps its id and creation time and the row count is unchanged. A new user adds one row with the next id. On failure nothing changes. |
| `TokenService.RemoveUserTokens` | src/services/token_service.py:152-162 | The result is true iff the database is reachable and the user had a row. Afterwards the user has no row and other users are unchanged. |
| `TokenService.UpdateTokenValidity` | src/services/token_service.py:198-211 | The result is true iff the user's row exists. Only its validity flag and update time change; other users are untouched. |
| `TokenService.SelectNewestFirst` | src/services/token_service.py:173-182 | Returns exactly the rows matching the WHERE clause, as a permutation, ordered by update time descending. |
| `TokenService.GetAllValidTokens` | src/services/token_service.py:171-185 | Lists every valid row exactly once, newest update first; every listed row is valid and stored. The list is empty on a database error. |
| `TokenService.CountRows` | src/services/token_service.py:224-226 | The loop's counts equal the table size and the numbers of valid and invalid rows. |
| `TokenService.CountDistinctUsers` | src/services/token_service.py:227 | Counts the distinct user ids of the table. |
| `TokenService.MaxUpdatedAt` | src/services/token_service.py:228 | The result is NULL iff the table is empty; otherwise it is an update time of some row and no row is later. |
| `TokenService.Aggregate` | src/services/token_service.py:222-230 | The aggregate row: COUNT is the table size, the SUMs are NULL on an empty table and otherwise the valid/invalid counts, MAX is the latest update. |
| `TokenService.GetTokensStats` | src/services/token_service.py:220-245 | Valid plus invalid equals total, and valid is the number of valid rows. Unique users equals total under the UNIQUE key. When there is a last update, it is some row's updated_at and no row is later. Every field is 0/None on an empty table and on a database error. |
| `TokenService.PartitionCount` | src/services/token_service.py:225-226 | Every row is counted as exactly one of valid or invalid. |
| `TokenService.FetchedRowRoundTrip` | src/database/models.py:25-48 | A row fetched by `get_user_tokens` comes back unchanged through `from_db` then `to_dict`. |
| `TokenService.StoredTokensReadBack` | src/services/token_service.py:122-135 | After `update_tokens` the fetched row holds the given tokens and is valid, and it is complete iff both are non-empty. A row first created by `update_access_token` is never complete. |
| `TokenService.RemoveThenGet` | src/services/token_service.py:152-162 | After a removal no row can be fetched, and a second removal reports false. |
| `TokenService.NulTokenRefused` | src/services/token_service.py:120-140 | A token holding a NUL character makes `update_tokens`, and the single-token update it is passed to, report failure and leave the store as it was; the same holds at lines 52-70 and 83-101. |
| `TokenService.UpdateTokensTwice` | src/services/token_service.py:129-135 | Two updates leave one row for the user, with the same id, holding the second call's tokens. |
| `Models.NewUserToken` | src/database/models.py:7-23 | Explicit arguments are kept as given, including supplied timestamps. A missing timestamp reads the clock. |
| `Models.OrNow` | src/database/models.py:22-23 | `ts or datetime.now()`: a supplied timestamp wins over the clock. |
| `Models.ConstructorDefaults` | src/database/models.py:7-16 | A token built from a user id alone has empty tokens, no id, is valid and is not complete. |
| `Models.FromDb` | src/database/models.py:25-36 | Each of the seven columns lands in the field of the same name; a NULL timestamp becomes the clock reading. |
| `Models.ToDict` | src/database/models.py:38-48 | Each field lands in the key of the same name, and both timestamps are present. |
| `Models.IsComplete` | src/database/models.py:50-53 | `bool(access_token and refresh_token)` holds iff both token strings are non-empty. |
| `Models.RecordRoundTrip` | src/database/models.py:25-48 | `to_dict(from_db(r))` returns all seven fields of `r`. A NULL timestamp comes back as the clock. |
| `Models.TokenRoundTrip` | src/database/models.py:25-48 | `from_db(to_dict(t))` rebuilds `t` whatever the clock reads. |
| `CommandTag.ParseDecimalRoundTrip` | src/cogs/admin.py:128 | `int()` of the decimal rendering of a count gives the count back. |
| `CommandTag.DecimalInjective` | src/services/token_service.py:158 | Different counts have different decimal renderings. |
| `CommandTag.TagIsOne` | src/services/token_service.py:158 | A tag equals "DELETE 1" (or "UPDATE 1") iff exactly one row was affected. |
| `CommandTag.FinalRunOfWord` | src/cogs/admin.py:128 | The last space-free run of "command count" is the count's text. |
| `CommandTag.ParseDecimal` | src/cogs/admin.py:128 | `int()` of a word succeeds iff the word is non-empty and all ASCII digits. |
| `CommandTag.AffectedCount` | src/cogs/admin.py:128 | A blank tag has no last word, so the read fails (IndexError). Otherwise the read succeeds iff the last space-separated word is all digits. |
| `CommandTag.AffectedCountOfTag` | src/cogs/admin.py:128 | `int(tag.split()[-1])` of the tag "UPDATE n" is n. |
| `AdminCommands.InvalidateValid` | src/cogs/admin.py:119-128 | The bulk UPDATE leaves no valid row and keeps every user. Previously valid rows become invalid with update time now; already invalid rows are untouched. The parsed tag count equals the number of rows that were valid. |
| `AdminCommands.InvalidateAll` | src/cogs/admin.py:102-140 | A non-administrator gets a check failure and nothing changes. Any confirmation other than exactly "CONFIRMER" changes nothing. An unreachable database gives the error reply. Otherwise the reply counts the rows that were valid and no valid row is left. |
| `AdminCommands.InvalidateAllTwice` | src/cogs/admin.py:119-128 | A second invalidation right after a first reports 0 and changes no row. |
| `AdminCommands.Stats` | src/cogs/admin.py:142-192 | Non-administrators get a check failure, and a database error gives the error reply. Otherwise the reply carries the raw aggregate row: the row count, NULL sums on an empty table and the valid/invalid counts otherwise, the number of distinct user ids, and the latest update time (NULL iff the table is empty, otherwise attained by a row and not exceeded by any). It also carries exactly the rows updated within the last 24 hours, newest first. |
| `AdminCommands.DaysSince` | src/cogs/admin.py:38 | `timedelta.days` is the floor of the elapsed time in days, so it is at least 1 iff a full day has passed. |
| `AdminCommands.Inactive` | src/cogs/admin.py:36-38 | A channel is inactive iff it has a latest message and that message is at least one day (86400 s) old. |
| `AdminCommands.Survivors` | src/cogs/admin.py:33-40 | The channels kept by a sweep without errors: exactly those that are not inactive. |
| `AdminCommands.FirstBreak` | src/cogs/admin.py:33-40 | The index of the first channel whose visit raises (unreadable history, or an inactive channel that cannot be deleted), or the channel count when there is none. |
| `AdminCommands.SweepChannels` | src/cogs/admin.py:33-40 | The loop raises iff some channel's visit raises, and it stops at the first such channel. What remains is the survivors among the visited channels followed by every unvisited channel. The deleted count is the number of visited channels that were not kept. |
| `AdminCommands.SweepWithoutError` | src/cogs/admin.py:33-40 | When no visit raises, exactly the non-inactive channels remain, in order, and the deleted count is the number of the others. |
| `AdminCommands.SweepMembership` | src/cogs/admin.py:33-40 | Deleted plus kept equals the channel count. A non-inactive channel is never deleted, and every deleted channel was inactive, readable and deletable. |
| `AdminCommands.FindCategory` | src/cogs/admin.py:25 | Finds the first category with the name, or reports that none has it. |
| `AdminCommands.CleanChats` | src/cogs/admin.py:20-52 | Only administrators act. The "no category" reply comes iff no category is named "Chats Privés"; otherwise the first such category is swept and every other category is unchanged. The error reply comes iff some visit in that category raises; the channels deleted before the failing one stay deleted and the later ones stay. Otherwise the reply counts the inactive channels, which are exactly the ones removed. |
| `AdminCommands.CleanKeepsActive` | src/cogs/admin.py:33-40 | Whatever the outcome, a channel that is not inactive stays in every category. |
| `AdminCommands.SilentChannelSurvives` | src/cogs/admin.py:36-40 | A channel with no message is never deleted. |
| `TokenCommands.TokenCommand` | src/cogs/tokens.py:29-69 | Outside a private chat the reply is PRIVATE_CHAT_REQUIRED and the store is untouched. Inside, TOKEN_UPDATED comes iff the service succeeded: the row then holds both tokens and is valid, and the public notice is posted. Otherwise the reply is TOKEN_ERROR with no change. |
| `TokenCommands.RemoveTokenCommand` | src/cogs/tokens.py:72-101 | Outside a private chat nothing changes. Inside, TOKEN_REMOVED comes iff the user had a row, so an absent user gets TOKEN_REMOVE_ERROR. |
| `TokenCommands.RegisterThenRemove` | src/cogs/tokens.py:86-95 | Registering then removing succeeds and leaves no row. A second removal is reported as an error. |
| `VoteService.Tally` | src/services/vote_service.py:64-65 | The count of the first ✅ reaction minus one, or 0 without one. |
| `VoteService.TallyNonNegative` | src/services/vote_service.py:64-65 | The tally is never negative when every listed reaction has a count. |
| `VoteService.Observe` | src/services/vote_service.py:60-77 | An invisible channel or a missing message skips the vote. A fetch error aborts the pass, and a fetched message yields the tally of its reactions. |
| `VoteService.SetVoteCount` | src/services/vote_service.py:67-71 | The UPDATE sets count and update time on the rows with that id. Other rows, and every other column, stay as they were. |
| `VoteService.RunPass` | src/services/vote_service.py:59-77 | Only count and update time ever change, and rows whose id was not selected are untouched. The pass is cut short iff some selected vote's fetch fails. |
| `VoteService.UpdateVoteCounts` | src/services/vote_service.py:50-77 | Every row keeps all columns but count and update time. An unreachable database changes nothing, and unique ids stay unique. |
| `VoteService.RunPassPointwise` | src/services/vote_service.py:59-77 | Each row ends with the last tally written under its id. |
| `VoteService.WrittenFilter` | src/services/vote_service.py:53-57 | Selecting the active votes first is the same as skipping inactive ones during the pass. |
| `VoteService.WrittenUnique` | src/services/vote_service.py:59-77 | With distinct ids, a vote gets its tally iff the pass reaches it and its message is found. |
| `VoteService.UpdateVoteCountsPointwise` | src/services/vote_service.py:50-77 | The pass agrees row by row with the reference: an active vote that the pass reaches and whose message is found gets its tally, and every other row is unchanged. |
| `VoteService.PassLeavesAlone` | src/services/vote_service.py:60-77 | Inactive votes, votes in an invisible channel and votes whose message is missing keep their row. After an error, every later row is untouched. |
| `VoteService.SixReactionsCountFive` | tests/test_tokens.py:101-129 | A single active vote whose message has six ✅ reactions ends with a count of 5. |
| `VoteService.FindVotesChannel` | src/services/vote_service.py:17 | Finds the first channel named "votes", or reports that there is none. |
| `VoteService.CreateVote` | src/services/vote_service.py:14-47 | An existing "votes" channel is reused and the guild is unchanged. Otherwise the guild gains exactly the channel that was created, if any, and keeps it even when a later step fails. The result is present iff every step succeeds, including the `$4::jsonb` cast of the payload, which refuses non-finite numbers and NUL characters (it also refuses unpaired surrogates, which a Dafny string cannot hold). It names the new row's id, the channel and the message. The new row has count 0 and is active. On failure the table is unchanged. |
| `VoteService.CreateVoteReusesChannel` | src/services/vote_service.py:17-19 | After a first attempt created the channel, whether or not that attempt then failed, a second attempt keeps the guild as it is and any vote it creates is posted in that channel. When both attempts succeed they use the same channel. |
| `VoteCommands.CreateVoteCommand` | src/cogs/votes.py:24-84 | Checks run in order: image content type, then the JSON file name, then reading and parsing. Each rejection comes with no vote created. The success reply carries the new id and comes iff every step and the service succeed, the jsonb cast of the payload included. The stored row holds the parsed JSON and the image URL. |
| `VoteCommands.Rank` | src/cogs/votes.py:104 | Entries are numbered from 1 in the order given. |
| `VoteCommands.NonFinitePayloadFails` | src/services/vote_service.py:33-47 | A payload that parses but holds NaN passes every check of the command, yet the INSERT refuses it: the reply is a failure and no row is added. |
| `VoteCommands.VoteStats` | src/cogs/votes.py:87-111 | A database error fails the command. "Aucun vote actif." comes iff no vote is active. Otherwise the entries are numbered from 1, ordered by count descending, and are exactly the active votes, as a permutation. |
| `VoteCommands.ActiveSelection` | src/cogs/votes.py:90-101 | No vote is selected iff none is active. |
| `VoteCommands.TwoVotesRanked` | tests/test_database.py:111-137 | Active votes with 3 and 5 votes are ranked #1 (5) and #2 (3). |
| `Sequences.Filter` | src/services/vote_service.py:53-57 | A WHERE over an ordered result keeps exactly the matching elements, in order, with their multiplicities. |
| `Sequences.SortDesc` | src/cogs/votes.py:94 | ORDER BY ... DESC: sorted descending and a permutation of the input. |
| `Helpers.DashSpaces` | src/utils/helpers.py:8 | Every space becomes a dash and every other character stays at its position. |
| `Helpers.KeepAllowed` | src/utils/helpers.py:9 | Only characters in [a-z0-9-] remain, and the result is no longer than the input. |
| `Helpers.KeepAllowedIsFilter` | src/utils/helpers.py:9 | The deletion keeps exactly the characters in [a-z0-9-], in their order. |
| `Helpers.CollapseDashes` | src/utils/helpers.py:10 | No two consecutive dashes remain. The result keeps the first and last character, uses only characters of the input and is no longer than it. |
| `Helpers.CollapseRun` | src/utils/helpers.py:10 | Two dashes in a row collapse exactly as one dash does, whatever surrounds them. |
| `Helpers.CollapseConcat` | src/utils/helpers.py:10 | Where two pieces do not meet dash against dash, each piece is collapsed on its own. |
| `Helpers.CollapseKeepsNonDashes` | src/utils/helpers.py:10 | Collapsing removes only dashes: the non-dash characters are kept, in order. |
| `Helpers.FilteredNonDash` | src/utils/helpers.py:8-9 | After spaces become dashes and other characters are deleted, the non-dash characters are exactly the letters and digits of the input, in order. |
| `Helpers.NormalizeChannelName` | src/utils/helpers.py:6-11 | Every output character is in [a-z0-9-] and no two dashes are adjacent. Apart from the dashes, the output is exactly the lower-case letters and digits of the lowercased name, in order. |
| `Helpers.NormalizeIdempotent` | src/utils/helpers.py:6-11 | Normalising twice gives the same result as normalising once. |
| `Helpers.NormalizeNoLonger` | src/utils/helpers.py:6-11 | The normalised name is never longer than the input. |
| `Helpers.NormalizeSpacedDash` | src/utils/helpers.py:8-11 | "a - b" becomes "a-b". |
| `Helpers.NormalizeDeletedBetweenDashes` | src/utils/helpers.py:8-11 | "a-!-b" becomes "a-b", because deletion happens before collapsing. |
| `Helpers.SpaceBetweenLetters` | src/utils/helpers.py:8-10 | For every name, a space between two letters or digits becomes exactly one dash: the name normalises to its two sides, each normalised on its own, joined by "-". |
| `Helpers.NormalizeKeepsEdgeDashes` | src/utils/helpers.py:8-11 | A non-empty word of lower-case letters and digits between two spaces becomes that word between two dashes: edge dashes are not stripped. |
| `Helpers.PrivateChannelName` | src/utils/helpers.py:37 | The name is "chat-" followed by the normalised display name, so it holds only [a-z0-9-] characters after the prefix and is no longer than "chat-" plus the display name. |
| `Helpers.IsPrivateChat` | src/utils/helpers.py:13-20 | A channel is a private chat iff it is a text channel in the "Chats Privés" category whose name is "chat-" followed by anything. |
| `Helpers.CreatedChannelIsPrivate` | src/utils/helpers.py:13-20 | A text channel so named in the "Chats Privés" category passes `is_private_chat`. |
| `Configuration.VarName` | src/utils/config.py:45-46 | A placeholder has at least three characters, and its name wrapped in "${" and "}" is the placeholder. |
| `Configuration.ReplaceEnvVars` | src/utils/config.py:38-48 | A placeholder whose variable is set becomes its value, and every other string and scalar is unchanged. Dicts keep their keys in order, and each list item is substituted in place, in order. |
| `Configuration.ReplacePreservesShape` | src/utils/config.py:41-44 | The rewritten tree has the same shape: constructors, keys in order and list lengths; only string leaves differ. |
| `Configuration.ReplaceUnresolvedIsIdentity` | src/utils/config.py:45-48 | A tree in which no placeholder names a set variable comes back unchanged. |
| `Configuration.ReplaceWithoutWork` | src/utils/config.py:38-48 | A tree without placeholders, or any tree under an empty environment, comes back unchanged. |
| `Configuration.Lookup` | src/utils/config.py:15-16 | Gives the value under the key, or nothing iff the key is absent. With distinct keys, it is the value of every entry with that key. |
| `Configuration.GetAttr` | src/utils/config.py:13-20 | A dict value gives a nested config and any other value is returned as is. An absent key raises AttributeError. |
| `Configuration.LookupAfterReplace` | src/utils/config.py:15-16 | Looking up in the rewritten tree equals rewriting the looked-up value. |
| `Configuration.GetAttrAfterReplace` | src/utils/config.py:13-20 | `__getattr__` on the loaded config equals the access on the raw tree followed by substitution. |

## Left out

- Startup, intents, presence, slash-command sync and logging are platform plumbing (src/bot.py, src/main.py, src/utils/logger.py). This includes the global handler that turns a failed `is_admin` check into a reply; the model stops at `CheckFailure`.
- Pool creation and the DDL in src/database/database.py are I/O. Of the schema, the model keeps the UNIQUE user id (the map key), the VARCHAR(255) token columns (`Varchar`) and the SERIAL id (`nextId`).
- The `votes` table's DDL is not part of this model. `create_vote` omits `vote_count` and `is_active` from its INSERT, and the model assumes the column defaults 0 and true, which the test data of tests/test_database.py:111-137 is consistent with.
- src/cogs/chat.py, `get_private_category` and `create_private_channel` make platform calls to create channels and set permissions. Only the channel name is modelled.
- `Config.load` (file reading, YAML parsing, dotenv) is I/O. The environment is a map, and YAML keys are strings.
- `Configuration.GetAttr`: `__getattr__` is consulted only for names normal lookup does not find, so the keys `load`, `_replace_env_vars` and `_config` reach the method or the field of that name rather than the config value. The model treats every key alike.
- `TokenService.Varchar`: a token holding an unpaired surrogate, which the driver cannot encode and the method reports as a failure, cannot occur in a Dafny string.
- The 5-minute timer of the poller and `wait_until_ready` are scheduling; one pass is modelled.
- Embeds, message texts built with f-strings, `strftime` and the user-name lookups are presentation. Replies are constructors.
- `list_tokens_command` is a listing without logic beyond the query; `/stats` covers the same query shape.
- Sessions, winners and archival are not implemented by any cog the bot loads (src/bot.py:73-78) or any service the services package exports (src/services/__init__.py:5-11). No loaded module imports src/database/vote.py.
- scripts/init_db.py imports a function that does not exist, so there is nothing to model.
- Row order: SQL without ORDER BY returns rows in an unspecified order; the poller's pass takes the table's sequence order. Which votes an aborting error spares depends on that order.
- Concurrency: each call sees a consistent store, and the two `datetime.now()` reads of the constructor are one clock value.
- `AdminCommands.CleanChats` and `AdminCommands.SweepChannels`: one clock value `now` serves the whole sweep, while src/cogs/admin.py:38 reads `discord.utils.utcnow()` again for each channel. A channel whose last message turns one day old while the sweep runs is kept by the model but deleted by the bot.
- `VoteService.UpdateVoteCounts`: every UPDATE of one pass stamps its row with the same `now`. In the source each autocommitted statement reads its own CURRENT_TIMESTAMP, so later writes of a pass can carry later times. `VoteService.UpdateVoteCountsPointwise` states the same single `now`.
- `TokenService.GetAllValidTokens`: the result holds whole rows. The query selects only discord_user_id, access_token, refresh_token and updated_at (src/services/token_service.py:174-178), so the projection is not modelled.
- `VoteCommands.VoteStats`: the entries hold whole rows. The query selects only title, vote_count and created_at (src/cogs/votes.py:91), so the projection is not modelled.
- `VoteService.CreateVote`: of the ways the INSERT can be refused for its data, only the `$4::jsonb` cast is modelled, and of that cast only non-finite numbers and NUL. An unpaired surrogate, which `json.dumps` writes as an escape that jsonb refuses, cannot occur in a Dafny string. The `votes` table's DDL is not part of this model, so any column constraint that could also refuse a row (a length, NOT NULL, an integer range for the coordinates or ids) is not modelled either.
- `AdminCommands.Stats`: the last-24-hours listing holds whole rows. The query selects only discord_user_id, updated_at and valid_token (src/cogs/admin.py:159), so the projection is not modelled.
- Exceptions raised while sending a reply (the `except` branches of the cogs that only log) are not modelled. Neither is a reply sent through `followup` before the interaction was deferred.
- `TokenService.GetUserTokens`: a server-side PostgresError, which the method turns into None, is not distinguished from an absent row. The only database failure modelled is an unreachable server.
- Token ids and user ids are unbounded integers; the BIGINT and SERIAL ranges are not modelled. Neither is the sequence value consumed by an upsert that ends in a conflict.
- `int()` is modelled for the unsigned ASCII digit strings PostgreSQL's command tags contain, not for signs, underscores or non-ASCII digits.
- `Helpers.LowerChar` lowercases ASCII letters plus the two non-ASCII characters whose lowercase contains ASCII letters (U+0130, U+212A). Every other non-ASCII character is dropped by the `[^a-z0-9-]` filter whatever its lowercase, so the result is the same.
- `Helpers.NormalizeNoLonger`: the bound holds for every input under the modelled lowercasing; full Unicode lowercasing, which can lengthen a string, is not modelled.
- The message `create_vote` posts before a later step fails is not modelled; the guild records channels only.
- Isolating each vote's fetch error would let the poller's pass continue. The code aborts the pass on any error other than NotFound, and the model follows the code.

=== FILE: admin_commands.dfy ===
/** The administrator commands: the permission check every command sits
    behind, `/invalidate-all`, `/stats` and `/clean-chats`. The first two
    act on the token table; `/clean-chats` acts on the guild's categories,
    given as values with the time of each channel's latest message. */
module AdminCommands {
  import opened Common
  import opened Sequences
  import opened CommandTag
  import opened Helpers
  import opened TokenService

  /** One day, in the seconds of the logical clock. */
  const Day: nat := 86400

  /** The word `/invalidate-all` must be given, exactly. */
  const Confirmation: string := "CONFIRMER"

  /** The member issuing a command, with their guild permission. */
  datatype Member = Member(id: int, administrator: bool)

  /** What the commands reply. `CheckFailure` is the failed `is_admin`
      check, which the command body never sees. */
  datatype Reply =
    | CheckFailure
    | ConfirmationRequired
    | Invalidated(count: nat)
    | InvalidateError
    | StatsReport(stats: SqlStats, recent: seq<TokenRow>)
    | StatsError
    | NoPrivateCategory
    | Cleaned(deleted: nat)
    | CleanError

  datatype Outcome = Outcome(store: Store, reply: Reply)

  // ---------------------------------------------------------------------
  // /invalidate-all

  /** `UPDATE user_tokens SET valid_token = false, updated_at = now WHERE
      valid_token = true`: the new rows and the command tag. */
  function InvalidateValid(rows: map<int, TokenRow>, now: nat): (r: (map<int, TokenRow>, string))
    ensures r.0.Keys == rows.Keys
    ensures ValidUsers(r.0) == {}
    ensures forall u :: u in rows && rows[u].validToken ==>
      r.0[u] == rows[u].(validToken := false, updatedAt := now)
    ensures forall u :: u in rows && !rows[u].validToken ==> r.0[u] == rows[u]
    ensures AffectedCount(r.1) == Some(|ValidUsers(rows)|)
  {
    var updated := map u | u in rows :: if rows[u].validToken then rows[u].(validToken := false, updatedAt := now) else rows[u];
    AffectedCountOfTag("UPDATE", |ValidUsers(rows)|);
    (updated, Tag("UPDATE", |ValidUsers(rows)|))
  }

  /** `invalidate_all_command`: behind the permission check and the
      confirmation word, every valid token is invalidated and the reply
      reports how many there were. */
  function InvalidateAll(member: Member, s: Store, confirmation: string, now: nat): (o: Outcome)
    ensures !member.administrator ==> o == Outcome(s, CheckFailure)
    ensures member.administrator && confirmation != Confirmation ==> o == Outcome(s, ConfirmationRequired)
    ensures member.administrator && confirmation == Confirmation && !s.online ==> o == Outcome(s, InvalidateError)
    ensures o.reply.Invalidated? <==> member.administrator && confirmation == Confirmation && s.online
    ensures o.reply.Invalidated? ==>
      && o.reply.count == |ValidUsers(s.rows)|
      && ValidUsers(o.store.rows) == {}
      && o.store.rows.Keys == s.rows.Keys
      && (forall u :: u in s.rows && s.rows[u].validToken ==>
            o.store.rows[u] == s.rows[u].(validToken := false, updatedAt := now))
      && (forall u :: u in s.rows && !s.rows[u].validToken ==> o.store.rows[u] == s.rows[u])
    ensures o.store.nextId == s.nextId && o.store.online == s.online
    ensures Wf(s) ==> Wf(o.store)
  {
    if !member.administrator then Outcome(s, CheckFailure)
    else if confirmation != Confirmation then Outcome(s, ConfirmationRequired)
    else if !s.online then Outcome(s, InvalidateError)
    else
      var (rows, tag) := InvalidateValid(s.rows, now);
      Outcome(s.(rows := rows), Invalidated(AffectedCount(tag).value))
  }

  /** A second `/invalidate-all` right after a first finds nothing left to
      invalidate: it reports 0 and changes no row. */
  lemma InvalidateAllTwice(member: Member, s: Store, now: nat, later: nat)
    requires member.administrator && s.online
    ensures var o1 := InvalidateAll(member, s, Confirmation, now);
            var o2 := InvalidateAll(member, o1.store, Confirmation, later);
            o2.reply == Invalidated(0) && o2.store == o1.store
  {
    var o1 := InvalidateAll(member, s, Confirmation, now);
    var o2 := InvalidateAll(member, o1.store, Confirmation, later);
    assert o2.store.rows == o1.store.rows by {
      forall u | u in o1.store.rows ensures o2.store.rows[u] == o1.store.rows[u] {
        assert u !in ValidUsers(o1.store.rows);
      }
    }
  }

  // ---------------------------------------------------------------------
  // /stats

  /** `updated_at > NOW() - INTERVAL '24 hours'`. */
  function Recent(now: nat): TokenRow -> bool {
    (row: TokenRow) => row.updatedAt > now - Day
  }

  /** `stats_command`: the raw aggregate row (whose sums are NULL on an
      empty table) and the rows updated in the last 24 hours, newest
      first. */
  method Stats(member: Member, s: Store, now: nat) returns (reply: Reply)
    ensures !member.administrator ==> reply == CheckFailure
    ensures member.administrator && !s.online ==> reply == StatsError
    ensures member.administrator && s.online ==> reply.StatsReport?
    ensures reply.StatsReport? ==>
      && reply.stats.totalTokens == |s.rows|
      && reply.stats.validTokens == (if |s.rows| == 0 then None else Some(|ValidUsers(s.rows)|))
      && reply.stats.invalidTokens == (if |s.rows| == 0 then None else Some(|InvalidUsers(s.rows)|))
      && reply.stats.uniqueUsers == |UserIds(s.rows, s.rows.Keys)|
      && (reply.stats.lastUpdate.None? <==> |s.rows| == 0)
      && (reply.stats.lastUpdate.Some? ==>
            (exists u :: u in s.rows && s.rows[u].updatedAt == reply.stats.lastUpdate.value)
            && (forall u :: u in s.rows ==> s.rows[u].updatedAt <= reply.stats.lastUpdate.value))
    ensures reply.StatsReport? ==>
      && SortedDesc(reply.recent, UpdatedAt)
      && multiset(reply.recent) == multiset(Where(s.rows, Recent(now)).Values)
      && (forall i :: 0 <= i < |reply.recent| ==>
            reply.recent[i] in s.rows.Values && reply.recent[i].updatedAt + Day > now)
      && (forall u :: u in s.rows && s.rows[u].updatedAt + Day > now ==> s.rows[u] in reply.recent)
  {
    if !member.administrator {
      return CheckFailure;
    }
    if !s.online {
      return StatsError;
    }
    var stats := Aggregate(s.rows);
    var recent := SelectNewestFirst(s.rows, Recent(now));
    forall i | 0 <= i < |recent|
      ensures recent[i] in s.rows.Values && recent[i].updatedAt + Day > now
    {
      assert recent[i] in multiset(recent);
    }
    forall u | u in s.rows && s.rows[u].updatedAt + Day > now
      ensures s.rows[u] in recent
    {
      assert s.rows[u] in Where(s.rows, Recent(now)).Values;
      assert s.rows[u] in multiset(recent);
    }
    reply := StatsReport(stats, recent);
  }

  // ---------------------------------------------------------------------
  // /clean-chats

  /** A text channel of the private category: the creation time of its
      latest message, if any, whether the bot may read its history, and
      whether the bot may delete it. */
  datatype ChatChannel = ChatChannel(id: int, lastMessageAt: Option<nat>, readable: bool, deletable: bool)

  datatype GuildCategory = GuildCategory(name: string, textChannels: seq<ChatChannel>)

  /** `(utcnow() - created_at).days`: whole days elapsed, rounded down, so
      negative for a message dated in the future. */
  function DaysSince(now: nat, t: nat): (d: int)
    ensures d * Day <= now - t < (d + 1) * Day
    ensures d >= 1 <==> now - t >= Day
  {
    (now - t) / Day
  }

  /** The channel's latest message is at least one full day old. A channel
      without messages is never inactive. */
  predicate Inactive(ch: ChatChannel, now: nat): (b: bool)
    ensures b <==> ch.lastMessageAt.Some? && ch.lastMessageAt.value + Day <= now
  {
    ch.lastMessageAt.Some? && DaysSince(now, ch.lastMessageAt.value) >= 1
  }

  /** The channels that are not inactive, in their order: what a sweep
      of `channels` leaves when no visit raises. */
  function Survivors(channels: seq<ChatChannel>, now: nat): (r: seq<ChatChannel>)
    ensures |r| <= |channels|
  {
    if |channels| == 0 then []
    else (if Inactive(channels[0], now) then [] else [channels[0]]) + Survivors(channels[1..], now)
  }

  /** The survivors are exactly the channels that are not inactive. */
  lemma {:induction false} SurvivorsMembers(channels: seq<ChatChannel>, now: nat)
    ensures forall c :: c in Survivors(channels, now) <==> c in channels && !Inactive(c, now)
  {
    if |channels| > 0 {
      SurvivorsMembers(channels[1..], now);
      assert channels == [channels[0]] + channels[1..];
    }
  }

  /** Visiting a channel that raises ends the loop: reading its history
      fails, or it is inactive and its deletion fails. */
  predicate Breaks(ch: ChatChannel, now: nat) {
    !ch.readable || (Inactive(ch, now) && !ch.deletable)
  }

  /** Index of the first channel whose visit raises, or the number of
      channels when none does. */
  function FirstBreak(channels: seq<ChatChannel>, now: nat): (j: nat)
    ensures j <= |channels|
    ensures forall i :: 0 <= i < j ==> !Breaks(channels[i], now)
    ensures j < |channels| ==> Breaks(channels[j], now)
    ensures j < |channels| <==> exists i :: 0 <= i < |channels| && Breaks(channels[i], now)
  {
    if |channels| == 0 || Breaks(channels[0], now) then 0
    else 1 + FirstBreak(channels[1..], now)
  }

  /** Channels left, channels deleted, and whether the loop raised. */
  datatype Sweep = Sweep(kept: seq<ChatChannel>, deleted: nat, failed: bool)

  /** What a sweep that stops at index `j` leaves: the survivors among the
      channels visited, then every channel not visited. */
  function LeftAfter(channels: seq<ChatChannel>, j: nat, now: nat): seq<ChatChannel>
    requires j <= |channels|
  {
    Survivors(channels[..j], now) + channels[j..]
  }

  lemma SurvivorsCons(c: ChatChannel, rest: seq<ChatChannel>, j: nat, now: nat)
    requires j <= |rest|
    ensures Survivors(([c] + rest)[..j + 1], now) == (if Inactive(c, now) then [] else [c]) + Survivors(rest[..j], now)
  {
    assert ([c] + rest)[..j + 1] == [c] + rest[..j];
    assert ([c] + rest[..j])[1..] == rest[..j];
  }

  /** One more channel visited in front of a sweep that stops at `j`. */
  lemma LeftAfterCons(c: ChatChannel, rest: seq<ChatChannel>, j: nat, now: nat)
    requires j <= |rest|
    ensures LeftAfter([c] + rest, j + 1, now)
         == (if Inactive(c, now) then [] else [c]) + LeftAfter(rest, j, now)
    ensures |Survivors(([c] + rest)[..j + 1], now)|
         == (if Inactive(c, now) then 0 else 1) + |Survivors(rest[..j], now)|
  {
    SurvivorsCons(c, rest, j, now);
    assert ([c] + rest)[j + 1..] == rest[j..];
    var head := if Inactive(c, now) then [] else [c];
    assert (head + Survivors(rest[..j], now)) + rest[j..] == head + (Survivors(rest[..j], now) + rest[j..]);
  }

  /** `r` is what the loop leaves when it stops at the first channel
      whose visit raises: it raised iff there is such a channel, the
      survivors among the channels visited remain followed by every channel
      not visited, and the deleted count is the number of visited channels
      that did not survive. */
  predicate StopsAtFirstBreak(channels: seq<ChatChannel>, now: nat, r: Sweep) {
    var j := FirstBreak(channels, now);
    && (r.failed <==> j < |channels|)
    && r.kept == LeftAfter(channels, j, now)
    && r.deleted == j - |Survivors(channels[..j], now)|
  }

  /** One visit that does not raise, in front of the rest of the loop. */
  lemma VisitThenSweep(c: ChatChannel, rest: seq<ChatChannel>, now: nat, r: Sweep)
    requires !Breaks(c, now) && StopsAtFirstBreak(rest, now, r)
    ensures StopsAtFirstBreak([c] + rest, now,
              if Inactive(c, now) then r.(deleted := r.deleted + 1) else r.(kept := [c] + r.kept))
  {
    var channels := [c] + rest;
    var j := FirstBreak(rest, now);
    assert channels[1..] == rest;
    assert FirstBreak(channels, now) == j + 1;
    LeftAfterCons(c, rest, j, now);
  }

  /** The loop over the category's text channels: each channel's history
      is read and, if its latest message is a day old, the channel is
      deleted. The first visit that raises stops the loop; the deletions
      made before it stand and the later channels are not visited. */
  function SweepChannels(channels: seq<ChatChannel>, now: nat): (r: Sweep)
    ensures StopsAtFirstBreak(channels, now, r)
  {
    if |channels| == 0 then
      assert channels[..0] == [] && channels[0..] == [];
      Sweep([], 0, false)
    else
      var c := channels[0];
      var rest := channels[1..];
      assert channels == [c] + rest;
      if Breaks(c, now) then
        assert channels[..0] == [] && channels[0..] == channels;
        Sweep(channels, 0, true)
      else
        var r := SweepChannels(rest, now);
        VisitThenSweep(c, rest, now, r);
        if Inactive(c, now) then r.(deleted := r.deleted + 1)
        else r.(kept := [c] + r.kept)
  }

  /** When no visit raises, exactly the channels that are not inactive
      remain, in their order. */
  lemma SweepWithoutError(channels: seq<ChatChannel>, now: nat)
    ensures var r := SweepChannels(channels, now);
      !r.failed ==> r.kept == Survivors(channels, now) && r.deleted == |channels| - |Survivors(channels, now)|
  {
    assert channels[..|channels|] == channels && channels[|channels|..] == [];
  }

  /** Every channel either stays or was inactive, readable and deletable
      and is gone; a channel that is not inactive always stays. */
  lemma SweepMembership(channels: seq<ChatChannel>, now: nat)
    ensures var r := SweepChannels(channels, now);
      && r.deleted + |r.kept| == |channels|
      && (forall c :: c in r.kept ==> c in channels)
      && (forall c :: c in channels && !Inactive(c, now) ==> c in r.kept)
      && (forall c :: c in channels && c !in r.kept ==> Inactive(c, now) && c.readable && c.deletable)
  {
    var r := SweepChannels(channels, now);
    var j := FirstBreak(channels, now);
    SurvivorsMembers(channels[..j], now);
    assert channels == channels[..j] + channels[j..];
    forall c | c in channels && c !in r.kept
      ensures Inactive(c, now) && c.readable && c.deletable
    {
      assert c !in channels[j..] && c in channels[..j];
      var i :| 0 <= i < j && channels[..j][i] == c;
      assert !Breaks(channels[i], now);
    }
  }

  /** `discord.utils.get(categories, name=...)`: the first category with
      that name. */
  function FindCategory(categories: seq<GuildCategory>, name: string): (r: Option<nat>)
    ensures r.None? <==> forall i :: 0 <= i < |categories| ==> categories[i].name != name
    ensures r.Some? ==>
      && r.value < |categories|
      && categories[r.value].name == name
      && forall i :: 0 <= i < r.value ==> categories[i].name != name
  {
    if |categories| == 0 then None
    else if categories[0].name == name then Some(0)
    else
      match FindCategory(categories[1..], name)
      case None => None
      case Some(i) => Some(i + 1)
  }

  datatype CleanOutcome = CleanOutcome(categories: seq<GuildCategory>, reply: Reply)

  /** `clean_chats_command`: the first category named "Chats Privés" is
      swept; an exception during the sweep turns the reply into an error
      message, but the channels already deleted stay deleted. */
  function CleanChats(member: Member, categories: seq<GuildCategory>, now: nat): (o: CleanOutcome)
    ensures !member.administrator ==> o == CleanOutcome(categories, CheckFailure)
    ensures |o.categories| == |categories|
    ensures forall i :: 0 <= i < |categories| && categories[i].name != PrivateCategoryName ==>
      o.categories[i] == categories[i]
    ensures member.administrator ==>
      (o.reply == NoPrivateCategory <==> forall i :: 0 <= i < |categories| ==> categories[i].name != PrivateCategoryName)
    ensures o.reply == NoPrivateCategory ==> o.categories == categories
    ensures member.administrator && FindCategory(categories, PrivateCategoryName).Some? ==>
      var k := FindCategory(categories, PrivateCategoryName).value;
      var chans := categories[k].textChannels;
      var j := FirstBreak(chans, now);
      && (forall i :: 0 <= i < |categories| && i != k ==> o.categories[i] == categories[i])
      && o.categories[k].name == categories[k].name
      && (o.reply == CleanError <==> exists i :: 0 <= i < |chans| && Breaks(chans[i], now))
      && (o.reply != CleanError ==>
            && o.reply == Cleaned(|chans| - |Survivors(chans, now)|)
            && o.categories[k].textChannels == Survivors(chans, now))
      && (o.reply == CleanError ==> o.categories[k].textChannels == LeftAfter(chans, j, now))
  {
    if !member.administrator then CleanOutcome(categories, CheckFailure)
    else match FindCategory(categories, PrivateCategoryName)
      case None => CleanOutcome(categories, NoPrivateCategory)
      case Some(k) =>
        var r := SweepChannels(categories[k].textChannels, now);
        SweepWithoutError(categories[k].textChannels, now);
        var updated := categories[k := categories[k].(textChannels := r.kept)];
        CleanOutcome(updated, if r.failed then CleanError else Cleaned(r.deleted))
  }

  /** No cleaning deletes a channel that is not inactive, in any category,
      whatever the outcome. */
  lemma CleanKeepsActive(member: Member, categories: seq<GuildCategory>, now: nat)
    ensures var o := CleanChats(member, categories, now);
      forall i, c :: 0 <= i < |categories| && c in categories[i].textChannels && !Inactive(c, now) ==>
        c in o.categories[i].textChannels
  {
    if member.administrator && FindCategory(categories, PrivateCategoryName).Some? {
      SweepMembership(categories[FindCategory(categories, PrivateCategoryName).value].textChannels, now);
    }
  }

  /** A channel in which nobody has written yet survives every cleaning. */
  lemma SilentChannelSurvives(member: Member, categories: seq<GuildCategory>, now: nat, i: nat, c: ChatChannel)
    requires i < |categories| && c in categories[i].textChannels && c.lastMessageAt.None?
    ensures c in CleanChats(member, categories, now).categories[i].textChannels
  {
    assert !Inactive(c, now);
    CleanKeepsActive(member, categories, now);
  }
}

=== FILE: command_tag.dfy ===
/** The command tags PostgreSQL returns from `execute` ("DELETE 1",
    "UPDATE 7") and the way the services read them back: an equality test
    against "DELETE 1" / "UPDATE 1", or `int(tag.split()[-1])`. */
module CommandTag {
  import opened Common

  function DigitChar(d: nat): (c: char)
    requires d < 10
    ensures '0' <= c <= '9'
    ensures (c as int) - ('0' as int) == d
  {
    (('0' as int) + d) as char
  }

  predicate IsDigit(c: char) {
    '0' <= c <= '9'
  }

  function DigitValue(c: char): (d: nat)
    requires IsDigit(c)
    ensures d < 10 && DigitChar(d) == c
  {
    (c as int) - ('0' as int)
  }

  /** Decimal rendering of a row count, as the server writes it. */
  function Decimal(n: nat): (s: string)
    ensures |s| >= 1
    ensures forall i :: 0 <= i < |s| ==> IsDigit(s[i])
  {
    if n < 10 then [DigitChar(n)] else Decimal(n / 10) + [DigitChar(n % 10)]
  }

  /** Value of a non-empty string of ASCII digits; None where Python's
      `int()` would raise (the empty word, or any non-digit). */
  function ParseDecimal(s: string): (r: Option<nat>)
    ensures r.Some? <==> |s| >= 1 && AllDigits(s)
  {
    if |s| == 0 then None else ParseDigits(s)
  }

  /** All characters are ASCII digits. */
  predicate AllDigits(s: string) {
    forall i :: 0 <= i < |s| ==> IsDigit(s[i])
  }

  function ParseDigits(s: string): (r: Option<nat>)
    ensures r.Some? <==> AllDigits(s)
  {
    if |s| == 0 then Some(0)
    else if !IsDigit(s[|s| - 1]) then None
    else match ParseDigits(s[..|s| - 1])
      case None => None
      case Some(v) => Some(v * 10 + DigitValue(s[|s| - 1]))
  }

  lemma {:induction false} ParseDecimalRoundTrip(n: nat)
    ensures ParseDecimal(Decimal(n)) == Some(n)
    decreases n
  {
    if n >= 10 {
      var s := Decimal(n / 10) + [DigitChar(n % 10)];
      assert s[..|s| - 1] == Decimal(n / 10);
      ParseDecimalRoundTrip(n / 10);
      assert ParseDigits(s[..|s| - 1]) == Some(n / 10);
      assert DigitValue(s[|s| - 1]) == n % 10;
    } else {
      var s := [DigitChar(n)];
      assert s[..0] == [];
      assert ParseDigits(s[..0]) == Some(0);
      assert DigitValue(s[0]) == n;
    }
  }

  lemma DecimalInjective(n: nat, m: nat)
    requires Decimal(n) == Decimal(m)
    ensures n == m
  {
    ParseDecimalRoundTrip(n);
    ParseDecimalRoundTrip(m);
  }

  /** The tag of a command that affected `count` rows. */
  function Tag(command: string, count: nat): string {
    command + " " + Decimal(count)
  }

  /** `tag == command + " 1"`, the services' "exactly one row" test, holds
      exactly when one row was affected. */
  lemma {:induction false} TagIsOne(command: string, count: nat)
    ensures Tag(command, count) == command + " 1" <==> count == 1
  {
    var p := command + " ";
    assert Tag(command, count) == p + Decimal(count);
    assert command + " 1" == p + Decimal(1);
    if Tag(command, count) == command + " 1" {
      assert (p + Decimal(count))[|p|..] == Decimal(count);
      assert (p + Decimal(1))[|p|..] == Decimal(1);
      DecimalInjective(count, 1);
    }
  }

  /** The string with its trailing spaces removed. */
  function TrimEnd(s: string): (t: string)
    ensures |t| <= |s| && t == s[..|t|]
    ensures |t| > 0 ==> t[|t| - 1] != ' '
    ensures forall i :: |t| <= i < |s| ==> s[i] == ' '
  {
    if |s| > 0 && s[|s| - 1] == ' ' then TrimEnd(s[..|s| - 1]) else s
  }

  /** The longest space-free suffix. */
  function FinalRun(t: string): (w: string)
    ensures |w| <= |t| && w == t[|t| - |w|..]
    ensures forall i :: 0 <= i < |w| ==> w[i] != ' '
    ensures |w| < |t| ==> t[|t| - |w| - 1] == ' '
  {
    if |t| == 0 || t[|t| - 1] == ' ' then [] else FinalRun(t[..|t| - 1]) + [t[|t| - 1]]
  }

  /** `s.split()[-1]` for a string whose only blank is the space: the last
      space-separated word, or None when `split()` yields no word at all
      (Python then raises IndexError). */
  function LastWord(s: string): (r: Option<string>)
    ensures r.None? <==> TrimEnd(s) == []
    ensures r.Some? ==> |r.value| >= 1 && forall i :: 0 <= i < |r.value| ==> r.value[i] != ' '
  {
    var t := TrimEnd(s);
    if |t| == 0 then None else Some(FinalRun(t))
  }

  /** `int(tag.split()[-1])`, the affected-row count read back from a tag. */
  function AffectedCount(tag: string): (r: Option<nat>)
    ensures TrimEnd(tag) == [] ==> r.None?
    ensures r.Some? <==> LastWord(tag).Some? && AllDigits(LastWord(tag).value)
  {
    match LastWord(tag)
    case None => None
    case Some(w) => ParseDecimal(w)
  }

  lemma {:induction false} FinalRunOfWord(prefix: string, w: string)
    requires forall i :: 0 <= i < |w| ==> w[i] != ' '
    ensures FinalRun(prefix + " " + w) == w
    decreases |w|
  {
    var t := prefix + " " + w;
    if |w| > 0 {
      var w' := w[..|w| - 1];
      assert t[..|t| - 1] == prefix + " " + w';
      FinalRunOfWord(prefix, w');
      assert w' + [w[|w| - 1]] == w;
    } else {
      assert t[|t| - 1] == ' ';
    }
  }

  /** Reading a tag back yields the count that was written into it. */
  lemma AffectedCountOfTag(command: string, count: nat)
    ensures AffectedCount(Tag(command, count)) == Some(count)
  {
    var t := Tag(command, count);
    var d := Decimal(count);
    assert t[|t| - 1] == d[|d| - 1];
    assert TrimEnd(t) == t;
    FinalRunOfWord(command, d);
    ParseDecimalRoundTrip(count);
  }
}

=== FILE: common.dfy ===
/** Small shared vocabulary: an optional value and the string prefix/suffix
    tests that Python's `str.startswith` / `str.endswith` perform. */
module Common {

  datatype Option<+T> = None | Some(value: T)

  /** Python `s.startswith(prefix)`. */
  predicate StartsWith(s: string, prefix: string) {
    |prefix| <= |s| && s[..|prefix|] == prefix
  }

  /** Python `s.endswith(suffix)`. */
  predicate EndsWith(s: string, suffix: string) {
    |suffix| <= |s| && s[|s| - |suffix|..] == suffix
  }

  lemma StartsWithConcat(prefix: string, rest: string)
    ensures StartsWith(prefix + rest, prefix)
  {
    assert (prefix + rest)[..|prefix|] == prefix;
  }
}

=== FILE: configuration.dfy ===
/** `Config`: attribute lookup over the loaded settings tree, and the
    `${NAME}` substitution applied to the tree when it is loaded. The
    process environment is a map from variable names to values. */
module Configuration {
  import opened Common
  import opened Values

  type Env = map<string, string>

  /** A string of the form `${...}`. */
  predicate IsPlaceholder(s: string) {
    StartsWith(s, "${") && EndsWith(s, "}")
  }

  /** `s[2:-1]`, the variable a placeholder names. A placeholder has at
      least three characters, since its second is `{` and its last `}`. */
  function VarName(s: string): (name: string)
    requires IsPlaceholder(s)
    ensures |s| >= 3 && name == s[2..|s| - 1]
    ensures "${" + name + "}" == s
  {
    assert s[1] == s[..2][1] == '{';
    assert s[|s| - 1] == s[|s| - 1..][0] == '}';
    assert s == s[..2] + s[2..|s| - 1] + s[|s| - 1..];
    s[2..|s| - 1]
  }

  /** `os.getenv(name, default)`. */
  function GetEnv(env: Env, name: string, default: string): string {
    if name in env then env[name] else default
  }

  /** `Config._replace_env_vars`. */
  function ReplaceEnvVars(v: Value, env: Env): (r: Value)
    ensures v.Str? && IsPlaceholder(v.s) && VarName(v.s) in env ==> r == Str(env[VarName(v.s)])
    ensures v.Str? && !(IsPlaceholder(v.s) && VarName(v.s) in env) ==> r == v
    ensures !v.Str? && !v.List? && !v.Dict? ==> r == v
    ensures v.Dict? <==> r.Dict?
    ensures v.Dict? ==> Keys(r.entries) == Keys(v.entries)
    ensures v.List? <==> r.List?
    ensures v.List? ==> |r.items| == |v.items|
    ensures v.List? ==> forall i :: 0 <= i < |v.items| ==> r.items[i] == ReplaceEnvVars(v.items[i], env)
    decreases v
  {
    match v
    case Dict(es) =>
      Dict(seq(|es|, i requires 0 <= i < |es| => (es[i].0, ReplaceEnvVars(es[i].1, env))))
    case List(xs) =>
      List(seq(|xs|, i requires 0 <= i < |xs| => ReplaceEnvVars(xs[i], env)))
    case Str(s) =>
      if IsPlaceholder(s) then Str(GetEnv(env, VarName(s), s)) else v
    case _ => v
  }

  /** The substitution applied to the entries of a dict. */
  function ReplaceInEntries(entries: seq<(string, Value)>, env: Env): (r: seq<(string, Value)>)
    ensures |r| == |entries|
    ensures forall i :: 0 <= i < |entries| ==> r[i] == (entries[i].0, ReplaceEnvVars(entries[i].1, env))
  {
    ReplaceEnvVars(Dict(entries), env).entries
  }

  /** Same constructors all the way down, same dict keys in the same order
      and same list lengths; only string leaves may differ. */
  predicate SameShape(a: Value, b: Value)
    decreases a
  {
    match a
    case Dict(es) =>
      b.Dict? && Keys(b.entries) == Keys(es)
      && forall i :: 0 <= i < |es| ==> SameShape(es[i].1, b.entries[i].1)
    case List(xs) =>
      b.List? && |b.items| == |xs|
      && forall i :: 0 <= i < |xs| ==> SameShape(xs[i], b.items[i])
    case Str(_) => b.Str?
    case _ => a == b
  }

  lemma {:induction false} ReplacePreservesShape(v: Value, env: Env)
    ensures SameShape(v, ReplaceEnvVars(v, env))
    decreases v
  {
    match v
    case Dict(es) =>
      forall i | 0 <= i < |es| ensures SameShape(es[i].1, ReplaceEnvVars(v, env).entries[i].1) {
        ReplacePreservesShape(es[i].1, env);
      }
    case List(xs) =>
      forall i | 0 <= i < |xs| ensures SameShape(xs[i], ReplaceEnvVars(v, env).items[i]) {
        ReplacePreservesShape(xs[i], env);
      }
    case _ =>
  }

  /** No placeholder in the tree names a variable that `env` defines. */
  predicate NothingToResolve(v: Value, env: Env)
    decreases v
  {
    match v
    case Dict(es) => forall i :: 0 <= i < |es| ==> NothingToResolve(es[i].1, env)
    case List(xs) => forall i :: 0 <= i < |xs| ==> NothingToResolve(xs[i], env)
    case Str(s) => !(IsPlaceholder(s) && VarName(s) in env)
    case _ => true
  }

  /** A tree with nothing to resolve comes back unchanged. */
  lemma {:induction false} ReplaceUnresolvedIsIdentity(v: Value, env: Env)
    requires NothingToResolve(v, env)
    ensures ReplaceEnvVars(v, env) == v
    decreases v
  {
    match v
    case Dict(es) =>
      forall i | 0 <= i < |es| ensures ReplaceEnvVars(es[i].1, env) == es[i].1 {
        ReplaceUnresolvedIsIdentity(es[i].1, env);
      }
      assert ReplaceEnvVars(v, env).entries == es;
    case List(xs) =>
      forall i | 0 <= i < |xs| ensures ReplaceEnvVars(xs[i], env) == xs[i] {
        ReplaceUnresolvedIsIdentity(xs[i], env);
      }
      assert ReplaceEnvVars(v, env).items == xs;
    case _ =>
  }

  predicate NoPlaceholders(v: Value)
    decreases v
  {
    match v
    case Dict(es) => forall i :: 0 <= i < |es| ==> NoPlaceholders(es[i].1)
    case List(xs) => forall i :: 0 <= i < |xs| ==> NoPlaceholders(xs[i])
    case Str(s) => !IsPlaceholder(s)
    case _ => true
  }

  lemma {:induction false} NoPlaceholdersNothingToResolve(v: Value, env: Env)
    requires NoPlaceholders(v)
    ensures NothingToResolve(v, env)
    decreases v
  {
    match v
    case Dict(es) =>
      forall i | 0 <= i < |es| ensures NothingToResolve(es[i].1, env) {
        NoPlaceholdersNothingToResolve(es[i].1, env);
      }
    case List(xs) =>
      forall i | 0 <= i < |xs| ensures NothingToResolve(xs[i], env) {
        NoPlaceholdersNothingToResolve(xs[i], env);
      }
    case _ =>
  }

  lemma {:induction false} EmptyEnvNothingToResolve(v: Value)
    ensures NothingToResolve(v, map[])
    decreases v
  {
    match v
    case Dict(es) =>
      forall i | 0 <= i < |es| ensures NothingToResolve(es[i].1, map[]) {
        EmptyEnvNothingToResolve(es[i].1);
      }
    case List(xs) =>
      forall i | 0 <= i < |xs| ensures NothingToResolve(xs[i], map[]) {
        EmptyEnvNothingToResolve(xs[i]);
      }
    case _ =>
  }

  /** A tree without placeholders, or any tree under an empty environment,
      is returned unchanged. */
  lemma ReplaceWithoutWork(v: Value, env: Env)
    ensures NoPlaceholders(v) ==> ReplaceEnvVars(v, env) == v
    ensures ReplaceEnvVars(v, map[]) == v
  {
    if NoPlaceholders(v) {
      NoPlaceholdersNothingToResolve(v, env);
      ReplaceUnresolvedIsIdentity(v, env);
    }
    EmptyEnvNothingToResolve(v);
    ReplaceUnresolvedIsIdentity(v, map[]);
  }

  /** What `Config.__getattr__` yields: a nested `Config` over a dict value,
      a plain value, or AttributeError. */
  datatype Attr =
    | Section(entries: seq<(string, Value)>)
    | Setting(value: Value)
    | AttributeError(name: string)

  /** The value stored under `name` (the first entry with that key). */
  function Lookup(entries: seq<(string, Value)>, name: string): (r: Option<Value>)
    ensures r.None? <==> name !in Keys(entries)
    ensures r.Some? ==> (name, r.value) in entries
    ensures r.Some? && DistinctKeys(entries) ==>
      forall i :: 0 <= i < |entries| && entries[i].0 == name ==> entries[i].1 == r.value
  {
    if |entries| == 0 then None
    else if entries[0].0 == name then Some(entries[0].1)
    else
      assert Keys(entries) == [entries[0].0] + Keys(entries[1..]);
      assert DistinctKeys(entries) ==> DistinctKeys(entries[1..]);
      Lookup(entries[1..], name)
  }

  /** `Config.__getattr__`. */
  function GetAttr(config: seq<(string, Value)>, name: string): (a: Attr)
    ensures a.AttributeError? <==> name !in Keys(config)
    ensures a.AttributeError? ==> a.name == name
    ensures a.Section? ==> (name, Dict(a.entries)) in config
    ensures a.Setting? ==> (name, a.value) in config && !a.value.Dict?
  {
    match Lookup(config, name)
    case None => AttributeError(name)
    case Some(v) => if v.Dict? then Section(v.entries) else Setting(v)
  }

  /** A looked-up value, substituted. */
  function ReplaceFound(found: Option<Value>, env: Env): Option<Value> {
    if found.Some? then Some(ReplaceEnvVars(found.value, env)) else None
  }

  /** A `Config` attribute, substituted. */
  function ReplaceAttr(a: Attr, env: Env): Attr {
    match a
    case AttributeError(_) => a
    case Section(es) => Section(ReplaceInEntries(es, env))
    case Setting(v) => Setting(ReplaceEnvVars(v, env))
  }

  /** Looking a setting up in the substituted tree is the same as looking it
      up in the raw tree and substituting in the result. */
  lemma {:induction false} LookupAfterReplace(config: seq<(string, Value)>, env: Env, name: string)
    ensures Lookup(ReplaceInEntries(config, env), name) == ReplaceFound(Lookup(config, name), env)
  {
    var r := ReplaceInEntries(config, env);
    if |config| > 0 && config[0].0 != name {
      LookupAfterReplace(config[1..], env, name);
      assert r[1..] == ReplaceInEntries(config[1..], env);
    }
  }

  lemma GetAttrAfterReplace(config: seq<(string, Value)>, env: Env, name: string)
    ensures GetAttr(ReplaceInEntries(config, env), name) == ReplaceAttr(GetAttr(config, name), env)
  {
    LookupAfterReplace(config, env, name);
  }
}

=== FILE: helpers.dfy ===
/** Channel-name helpers: `normalize_channel_name`, `is_private_chat` and
    the name `create_private_channel` gives a member's private chat. */
module Helpers {
  import opened Common
  import opened Sequences

  const PrivateCategoryName: string := "Chats Privés"
  const PrivateChannelPrefix: string := "chat-"

  /** `str.lower()` of one character, exact wherever the result can survive
      the `[^a-z0-9-]` filter that follows it: ASCII capitals, and the two
      non-ASCII characters whose lower case contains an ASCII letter
      (U+0130 lowers to "i" + U+0307, the Kelvin sign U+212A to "k").
      Every other character keeps a non-ASCII lower case, which the filter
      removes, so it is left as is. */
  function LowerChar(c: char): string {
    if 'A' <= c <= 'Z' then [((c as int) + 32) as char]
    else if c == '\U{0130}' then ['i', '\U{0307}']
    else if c == '\U{212A}' then ['k']
    else [c]
  }

  function Lower(s: string): string {
    if |s| == 0 then [] else LowerChar(s[0]) + Lower(s[1..])
  }

  /** `s.replace(' ', '-')`. */
  function DashSpaces(s: string): (r: string)
    ensures |r| == |s|
    ensures forall i :: 0 <= i < |s| ==> r[i] == (if s[i] == ' ' then '-' else s[i])
  {
    if |s| == 0 then [] else [if s[0] == ' ' then '-' else s[0]] + DashSpaces(s[1..])
  }

  /** The characters the pattern `[^a-z0-9-]` does not delete. */
  predicate Allowed(c: char) {
    'a' <= c <= 'z' || '0' <= c <= '9' || c == '-'
  }

  /** `re.sub(r'[^a-z0-9-]', '', s)`. */
  function KeepAllowed(s: string): (r: string)
    ensures |r| <= |s|
    ensures forall i :: 0 <= i < |r| ==> Allowed(r[i])
  {
    if |s| == 0 then [] else (if Allowed(s[0]) then [s[0]] else []) + KeepAllowed(s[1..])
  }

  /** The deletion keeps exactly the allowed characters, in their order. */
  lemma {:induction false} KeepAllowedIsFilter(s: string)
    ensures KeepAllowed(s) == Filter(s, Allowed)
  {
    if |s| > 0 {
      KeepAllowedIsFilter(s[1..]);
    }
  }

  lemma KeepAllowedConcat(a: string, b: string)
    ensures KeepAllowed(a + b) == KeepAllowed(a) + KeepAllowed(b)
  {
    KeepAllowedIsFilter(a);
    KeepAllowedIsFilter(b);
    KeepAllowedIsFilter(a + b);
    FilterConcat(a, b, Allowed);
  }

  lemma KeepAllowedFixesAllowed(s: string)
    requires forall i :: 0 <= i < |s| ==> Allowed(s[i])
    ensures KeepAllowed(s) == s
  {
    KeepAllowedIsFilter(s);
    FilterAll(s, Allowed);
  }

  predicate NoDoubleDash(s: string) {
    forall i :: 0 <= i < |s| - 1 ==> !(s[i] == '-' && s[i + 1] == '-')
  }

  /** `re.sub(r'-+', '-', s)`: every run of dashes becomes one dash. */
  function CollapseDashes(s: string): (r: string)
    ensures |r| <= |s|
    ensures NoDoubleDash(r)
    ensures |s| > 0 ==> |r| > 0 && r[0] == s[0] && r[|r| - 1] == s[|s| - 1]
    ensures forall c :: c in r ==> c in s
  {
    if |s| <= 1 then s
    else if s[0] == '-' && s[1] == '-' then CollapseDashes(s[1..])
    else [s[0]] + CollapseDashes(s[1..])
  }

  /** The characters of `s` that are not dashes, in order. */
  function NonDash(s: string): string {
    if |s| == 0 then [] else (if s[0] == '-' then [] else [s[0]]) + NonDash(s[1..])
  }

  lemma NonDashCons(c: char, t: string)
    ensures NonDash([c] + t) == (if c == '-' then [] else [c]) + NonDash(t)
  {
    assert ([c] + t)[1..] == t;
  }

  /** Collapsing removes only dashes: what is not a dash is kept, in order. */
  lemma {:induction false} CollapseKeepsNonDashes(s: string)
    ensures NonDash(CollapseDashes(s)) == NonDash(s)
  {
    if |s| > 1 {
      CollapseKeepsNonDashes(s[1..]);
      NonDashCons(s[0], s[1..]);
      assert s == [s[0]] + s[1..];
      if !(s[0] == '-' && s[1] == '-') {
        NonDashCons(s[0], CollapseDashes(s[1..]));
      }
    }
  }

  lemma {:induction false} NonDashConcat(a: string, b: string)
    ensures NonDash(a + b) == NonDash(a) + NonDash(b)
  {
    if |a| > 0 {
      assert (a + b)[1..] == a[1..] + b;
      NonDashConcat(a[1..], b);
    } else {
      assert a + b == b;
    }
  }

  /** A lower-case ASCII letter or a digit: what survives of a name apart
      from its dashes. */
  predicate LetterOrDigit(c: char) {
    'a' <= c <= 'z' || '0' <= c <= '9'
  }

  /** Turning spaces into dashes and deleting the other characters leaves,
      between the dashes, exactly the letters and digits of `s`. */
  lemma {:induction false} FilteredNonDash(s: string)
    ensures NonDash(KeepAllowed(DashSpaces(s))) == Filter(s, LetterOrDigit)
  {
    if |s| > 0 {
      var d := DashSpaces(s);
      assert d == [d[0]] + DashSpaces(s[1..]);
      var head := if Allowed(d[0]) then [d[0]] else [];
      assert KeepAllowed(d) == head + KeepAllowed(DashSpaces(s[1..]));
      NonDashConcat(head, KeepAllowed(DashSpaces(s[1..])));
      FilteredNonDash(s[1..]);
      assert NonDash(head) == if LetterOrDigit(s[0]) then [s[0]] else [];
    }
  }

  /** `normalize_channel_name`. */
  function NormalizeChannelName(name: string): (r: string)
    ensures forall i :: 0 <= i < |r| ==> Allowed(r[i])
    ensures NoDoubleDash(r)
    ensures NonDash(r) == Filter(Lower(name), LetterOrDigit)
  {
    var kept := KeepAllowed(DashSpaces(Lower(name)));
    var r := CollapseDashes(kept);
    assert forall i :: 0 <= i < |r| ==> r[i] in kept;
    assert forall c :: c in kept ==> Allowed(c);
    FilteredNonDash(Lower(name));
    CollapseKeepsNonDashes(kept);
    r
  }

  /** A string without a double dash is left alone. */
  lemma {:induction false} CollapseFixesSingleDashes(s: string)
    requires NoDoubleDash(s)
    ensures CollapseDashes(s) == s
  {
    if |s| > 1 {
      assert NoDoubleDash(s[1..]);
      CollapseFixesSingleDashes(s[1..]);
      assert s == [s[0]] + s[1..];
    }
  }

  /** A run of two dashes collapses exactly as a single dash does; with
      `CollapseFixesSingleDashes` this determines the function. */
  lemma {:induction false} CollapseRun(a: string, b: string)
    ensures CollapseDashes(a + "--" + b) == CollapseDashes(a + "-" + b)
  {
    var s, t := a + "--" + b, a + "-" + b;
    if |a| == 0 {
      assert s[1..] == t;
    } else {
      assert s[1..] == a[1..] + "--" + b;
      assert t[1..] == a[1..] + "-" + b;
      assert s[0] == t[0] && s[1] == t[1];
      CollapseRun(a[1..], b);
    }
  }

  /** Runs of dashes never cross a boundary that is not dash against dash,
      so each side is collapsed on its own. */
  lemma {:induction false} CollapseConcat(u: string, v: string)
    requires |u| == 0 || |v| == 0 || u[|u| - 1] != '-' || v[0] != '-'
    ensures CollapseDashes(u + v) == CollapseDashes(u) + CollapseDashes(v)
  {
    if |u| == 0 {
      assert u + v == v;
    } else if |v| == 0 {
      assert u + v == u;
    } else if |u| == 1 {
      assert (u + v)[0] == u[0] && (u + v)[1] == v[0];
      assert (u + v)[1..] == v;
    } else {
      assert (u + v)[0] == u[0] && (u + v)[1] == u[1];
      assert (u + v)[1..] == u[1..] + v;
      CollapseConcat(u[1..], v);
    }
  }

  /** A string whose every character is its own lower case is unchanged. */
  lemma {:induction false} LowerFixes(s: string)
    requires forall i :: 0 <= i < |s| ==> LowerChar(s[i]) == [s[i]]
    ensures Lower(s) == s
  {
    if |s| > 0 {
      LowerFixes(s[1..]);
      assert s == [s[0]] + s[1..];
    }
  }

  lemma LowerFixesAllowed(s: string)
    requires forall i :: 0 <= i < |s| ==> Allowed(s[i])
    ensures Lower(s) == s
  {
    forall i | 0 <= i < |s| ensures LowerChar(s[i]) == [s[i]] {
      assert Allowed(s[i]);
    }
    LowerFixes(s);
  }

  lemma {:induction false} DashSpacesFixesAllowed(s: string)
    requires forall i :: 0 <= i < |s| ==> Allowed(s[i])
    ensures DashSpaces(s) == s
  {
    if |s| > 0 {
      DashSpacesFixesAllowed(s[1..]);
      assert s == [s[0]] + s[1..];
    }
  }

  /** Each step of the normalisation leaves a string of allowed characters
      without a double dash as it is. */
  lemma PipelineFixes(t: string)
    requires forall i :: 0 <= i < |t| ==> Allowed(t[i])
    requires NoDoubleDash(t)
    ensures CollapseDashes(KeepAllowed(DashSpaces(Lower(t)))) == t
  {
    LowerFixesAllowed(t);
    assert DashSpaces(t) == t by { DashSpacesFixesAllowed(t); }
    assert KeepAllowed(t) == t by { KeepAllowedFixesAllowed(t); }
    CollapseFixesSingleDashes(t);
  }

  /** Normalising a normalised name changes nothing. */
  lemma NormalizeIdempotent(name: string)
    ensures NormalizeChannelName(NormalizeChannelName(name)) == NormalizeChannelName(name)
  {
    var t := NormalizeChannelName(name);
    PipelineFixes(t);
    NormalizeSteps(t, DashSpaces(Lower(t)), KeepAllowed(DashSpaces(Lower(t))), t);
  }

  lemma DashSpacesConcat(a: string, b: string)
    ensures DashSpaces(a + b) == DashSpaces(a) + DashSpaces(b)
  {
    var l, r := DashSpaces(a + b), DashSpaces(a) + DashSpaces(b);
    forall i | 0 <= i < |l| ensures l[i] == r[i] {
      if i < |a| {
        assert (a + b)[i] == a[i] && r[i] == DashSpaces(a)[i];
      } else {
        assert (a + b)[i] == b[i - |a|] && r[i] == DashSpaces(b)[i - |a|];
      }
    }
  }

  lemma KeepAllowedChar(c: char)
    ensures KeepAllowed([c]) == if Allowed(c) then [c] else []
  {
    assert [c][1..] == [];
  }

  /** Each input character leaves at most one character after the filter. */
  lemma OneCharAtMostOne(c: char)
    ensures |KeepAllowed(DashSpaces(LowerChar(c)))| <= 1
  {
    if c == '\U{0130}' {
      assert DashSpaces(LowerChar(c)) == ['i'] + ['\U{0307}'];
      KeepAllowedConcat(['i'], ['\U{0307}']);
      KeepAllowedChar('i');
      KeepAllowedChar('\U{0307}');
    } else {
      assert |DashSpaces(LowerChar(c))| == 1;
    }
  }

  lemma {:induction false} FilteredNoLonger(s: string)
    ensures |KeepAllowed(DashSpaces(Lower(s)))| <= |s|
  {
    if |s| > 0 {
      FilteredNoLonger(s[1..]);
      DashSpacesConcat(LowerChar(s[0]), Lower(s[1..]));
      KeepAllowedConcat(DashSpaces(LowerChar(s[0])), DashSpaces(Lower(s[1..])));
      OneCharAtMostOne(s[0]);
    }
  }

  /** The normalised name is never longer than the display name. */
  lemma NormalizeNoLonger(name: string)
    ensures |NormalizeChannelName(name)| <= |name|
  {
    FilteredNoLonger(name);
  }

  lemma {:induction false} LowerConcat(u: string, v: string)
    ensures Lower(u + v) == Lower(u) + Lower(v)
  {
    if |u| == 0 {
      assert u + v == v;
    } else {
      assert (u + v)[1..] == u[1..] + v;
      LowerConcat(u[1..], v);
    }
  }

  /** The three character-wise steps before the collapse work piece by
      piece. */
  lemma PreparedConcat(u: string, v: string)
    ensures KeepAllowed(DashSpaces(Lower(u + v)))
         == KeepAllowed(DashSpaces(Lower(u))) + KeepAllowed(DashSpaces(Lower(v)))
  {
    LowerConcat(u, v);
    DashSpacesConcat(Lower(u), Lower(v));
    KeepAllowedConcat(DashSpaces(Lower(u)), DashSpaces(Lower(v)));
  }

  lemma PreparedLetter(x: char)
    requires LetterOrDigit(x)
    ensures KeepAllowed(DashSpaces(Lower([x]))) == [x]
  {
    assert Lower([x]) == [x] by { assert [x][1..] == []; }
    assert DashSpaces([x]) == [x];
    KeepAllowedChar(x);
  }

  lemma PreparedSpace()
    ensures KeepAllowed(DashSpaces(Lower(" "))) == "-"
  {
    assert Lower(" ") == " " by { assert " "[1..] == []; }
    assert DashSpaces(" ") == "-";
    KeepAllowedChar('-');
  }

  /** One dash between two non-dash characters stays one dash. */
  lemma CollapseAroundDash(p: string, q: string)
    requires |p| > 0 && p[|p| - 1] != '-'
    requires |q| > 0 && q[0] != '-'
    ensures CollapseDashes(p + ("-" + q)) == CollapseDashes(p) + ("-" + CollapseDashes(q))
  {
    CollapseConcat(p, "-" + q);
    assert ("-" + q)[1..] == q;
  }

  lemma PreparedAppendLetter(a: string, x: char)
    requires LetterOrDigit(x)
    ensures KeepAllowed(DashSpaces(Lower(a + [x]))) == KeepAllowed(DashSpaces(Lower(a))) + [x]
  {
    PreparedConcat(a, [x]);
    PreparedLetter(x);
  }

  lemma PreparedPrependLetter(y: char, b: string)
    requires LetterOrDigit(y)
    ensures KeepAllowed(DashSpaces(Lower([y] + b))) == [y] + KeepAllowed(DashSpaces(Lower(b)))
  {
    PreparedConcat([y], b);
    PreparedLetter(y);
  }

  /** Before the collapse, a space between two pieces is a dash between
      what the pieces become. */
  lemma PreparedAroundSpace(u: string, v: string)
    ensures KeepAllowed(DashSpaces(Lower(u + (" " + v))))
         == KeepAllowed(DashSpaces(Lower(u))) + ("-" + KeepAllowed(DashSpaces(Lower(v))))
  {
    assert KeepAllowed(DashSpaces(Lower(" " + v))) == "-" + KeepAllowed(DashSpaces(Lower(v))) by {
      PreparedConcat(" ", v);
      PreparedSpace();
    }
    PreparedConcat(u, " " + v);
  }

  /** Before the collapse, a space between two characters is a dash
      between what the two sides become. */
  lemma PreparedSplit(a: string, x: char, y: char, b: string)
    ensures KeepAllowed(DashSpaces(Lower(a + [x, ' ', y] + b)))
         == KeepAllowed(DashSpaces(Lower(a + [x]))) + ("-" + KeepAllowed(DashSpaces(Lower([y] + b))))
  {
    assert a + [x, ' ', y] + b == (a + [x]) + (" " + ([y] + b));
    PreparedAroundSpace(a + [x], [y] + b);
  }

  /** The steps of the normalisation, on a space between letters or
      digits. */
  lemma CollapsedAroundSpace(a: string, x: char, y: char, b: string)
    requires LetterOrDigit(x) && LetterOrDigit(y)
    ensures CollapseDashes(KeepAllowed(DashSpaces(Lower(a + [x, ' ', y] + b))))
         == CollapseDashes(KeepAllowed(DashSpaces(Lower(a + [x]))))
            + ("-" + CollapseDashes(KeepAllowed(DashSpaces(Lower([y] + b)))))
  {
    var p, q := KeepAllowed(DashSpaces(Lower(a + [x]))), KeepAllowed(DashSpaces(Lower([y] + b)));
    PreparedSplit(a, x, y, b);
    assert |p| > 0 && p[|p| - 1] == x by { PreparedAppendLetter(a, x); }
    assert |q| > 0 && q[0] == y by { PreparedPrependLetter(y, b); }
    CollapseAroundDash(p, q);
  }

  /** The two sides of a space between letters or digits are normalised
      on their own and joined by exactly one dash: a space becomes a
      dash, and that dash is neither dropped nor doubled. */
  lemma SpaceBetweenLetters(a: string, x: char, y: char, b: string)
    requires LetterOrDigit(x) && LetterOrDigit(y)
    ensures NormalizeChannelName(a + [x, ' ', y] + b)
         == NormalizeChannelName(a + [x]) + ("-" + NormalizeChannelName([y] + b))
  {
    CollapsedAroundSpace(a, x, y, b);
  }

  /** Characters are deleted before dashes are collapsed, and edge dashes
      stay. */
  lemma SpacedDashLowered()
    ensures DashSpaces(Lower("a - b")) == "a---b"
  {
    var s := "a - b";
    assert forall i :: 0 <= i < |s| ==> LowerChar(s[i]) == [s[i]];
    LowerFixes(s);
  }

  lemma SpacedDashCollapsed()
    ensures CollapseDashes("a---b") == "a-b"
  {
    assert "a---b"[1..] == "---b" && "---b"[1..] == "--b";
    CollapseDoubleDash();
    assert CollapseDashes("---b") == "-b";
  }

  /** The normalisation as its three steps, stated over unknown strings so
      that a concrete name is taken one step at a time. */
  lemma NormalizeSteps(name: string, spaced: string, kept: string, r: string)
    requires DashSpaces(Lower(name)) == spaced
    requires KeepAllowed(spaced) == kept
    requires CollapseDashes(kept) == r
    ensures NormalizeChannelName(name) == r
  {
  }

  lemma NormalizeSpacedDash()
    ensures NormalizeChannelName("a - b") == "a-b"
  {
    SpacedDashLowered();
    KeepAllowedFixesAllowed("a---b");
    SpacedDashCollapsed();
    NormalizeSteps("a - b", "a---b", "a---b", "a-b");
  }

  lemma DeletedBetweenDashesLowered()
    ensures DashSpaces(Lower("a-!-b")) == "a-!-b"
  {
    var s := "a-!-b";
    assert forall i :: 0 <= i < |s| ==> LowerChar(s[i]) == [s[i]];
    LowerFixes(s);
  }

  /** One deleted character between two kept stretches. */
  lemma KeepAllowedDropsOne(a: string, c: char, b: string)
    requires forall i :: 0 <= i < |a| ==> Allowed(a[i])
    requires !Allowed(c)
    requires forall i :: 0 <= i < |b| ==> Allowed(b[i])
    ensures KeepAllowed(a + ([c] + b)) == a + b
  {
    assert KeepAllowed([c]) == [] by { KeepAllowedChar(c); }
    assert KeepAllowed(b) == b by { KeepAllowedFixesAllowed(b); }
    assert KeepAllowed([c] + b) == b by { KeepAllowedConcat([c], b); }
    assert KeepAllowed(a) == a by { KeepAllowedFixesAllowed(a); }
    KeepAllowedConcat(a, [c] + b);
  }

  lemma DeletedBetweenDashesKept()
    ensures KeepAllowed("a-!-b") == "a--b"
  {
    assert "a-!-b" == "a-" + (['!'] + "-b");
    KeepAllowedDropsOne("a-", '!', "-b");
  }

  lemma CollapseDoubleDash()
    ensures CollapseDashes("a--b") == "a-b"
  {
    assert "a--b"[1..] == "--b" && "--b"[1..] == "-b" && "-b"[1..] == "b";
    assert CollapseDashes("b") == "b";
    assert CollapseDashes("-b") == "-b";
    assert CollapseDashes("--b") == "-b";
  }

  lemma NormalizeDeletedBetweenDashes()
    ensures NormalizeChannelName("a-!-b") == "a-b"
  {
    DeletedBetweenDashesLowered();
    DeletedBetweenDashesKept();
    CollapseDoubleDash();
    NormalizeSteps("a-!-b", "a-!-b", "a--b", "a-b");
  }

  /** A word of lower-case letters and digits goes through the steps
      before the collapse unchanged. */
  lemma PreparedWord(w: string)
    requires forall i :: 0 <= i < |w| ==> LetterOrDigit(w[i])
    ensures KeepAllowed(DashSpaces(Lower(w))) == w
  {
    assert forall i :: 0 <= i < |w| ==> Allowed(w[i]);
    LowerFixesAllowed(w);
    DashSpacesFixesAllowed(w);
    KeepAllowedFixesAllowed(w);
  }

  /** Spaces around a word become dashes that are not stripped. */
  lemma NormalizeKeepsEdgeDashes(w: string)
    requires |w| > 0 && forall i :: 0 <= i < |w| ==> LetterOrDigit(w[i])
    ensures NormalizeChannelName(" " + w + " ") == "-" + w + "-"
  {
    var t := "-" + w + "-";
    assert KeepAllowed(DashSpaces(Lower(" " + w + " "))) == t by {
      PreparedConcat(" " + w, " ");
      PreparedConcat(" ", w);
      PreparedSpace();
      PreparedWord(w);
    }
    assert CollapseDashes(t) == t by {
      forall i | 0 <= i < |t| - 1 ensures !(t[i] == '-' && t[i + 1] == '-') {
        if i == 0 {
          assert t[1] == w[0];
        } else {
          assert t[i] == w[i - 1];
        }
      }
      CollapseFixesSingleDashes(t);
    }
    NormalizeSteps(" " + w + " ", DashSpaces(Lower(" " + w + " ")), t, t);
  }

  datatype Category = Category(name: string)

  /** A guild channel: only text channels can be private chats. */
  datatype Channel =
    | TextChannel(name: string, category: Option<Category>)
    | OtherChannel(name: string)

  /** `is_private_chat`. */
  predicate IsPrivateChat(ch: Channel): (b: bool)
    ensures b <==> && ch.TextChannel?
                   && ch.category == Some(Category(PrivateCategoryName))
                   && |ch.name| >= |PrivateChannelPrefix|
                   && ch.name == PrivateChannelPrefix + ch.name[|PrivateChannelPrefix|..]
  {
    && ch.TextChannel?
    && ch.category.Some?
    && ch.category.value.name == PrivateCategoryName
    && StartsWith(ch.name, PrivateChannelPrefix)
  }

  /** The name `create_private_channel` gives a member's chat. */
  function PrivateChannelName(displayName: string): (r: string)
    ensures StartsWith(r, PrivateChannelPrefix)
    ensures |r| <= |PrivateChannelPrefix| + |displayName|
    ensures forall i :: |PrivateChannelPrefix| <= i < |r| ==> Allowed(r[i])
    ensures r[|PrivateChannelPrefix|..] == NormalizeChannelName(displayName)
  {
    var n := NormalizeChannelName(displayName);
    StartsWithConcat(PrivateChannelPrefix, n);
    NormalizeNoLonger(displayName);
    PrivateChannelPrefix + n
  }

  /** A chat created in the private category under that name is recognised
      as a private chat, whatever the member's display name. */
  lemma CreatedChannelIsPrivate(displayName: string)
    ensures IsPrivateChat(TextChannel(PrivateChannelName(displayName), Some(Category(PrivateCategoryName))))
  {
  }
}

=== FILE: models.dfy ===
/** The `UserToken` record class: its constructor defaults, the conversion
    from and to the seven-column database record, and `is_complete`.
    Timestamps are seconds on a logical clock; `clock` is what
    `datetime.now()` reads during construction. */
module Models {
  import opened Common

  datatype UserToken = UserToken(
    id: Option<int>,
    discordUserId: int,
    accessToken: string,
    refreshToken: string,
    validToken: bool,
    createdAt: nat,
    updatedAt: nat)

  /** A database record / the dict `to_dict` builds: the same seven fields,
      but a timestamp column may hold NULL. */
  datatype Record = Record(
    id: Option<int>,
    discordUserId: int,
    accessToken: string,
    refreshToken: string,
    validToken: bool,
    createdAt: Option<nat>,
    updatedAt: Option<nat>)

  /** Python's `ts or datetime.now()` for an optional timestamp. */
  function OrNow(ts: Option<nat>, clock: nat): (t: nat)
    ensures ts.Some? ==> t == ts.value
    ensures ts.None? ==> t == clock
  {
    match ts
    case Some(v) => v
    case None => clock
  }

  /** `UserToken(discord_user_id, ...)` with the constructor's defaults. */
  function NewUserToken(
    clock: nat,
    discordUserId: int,
    accessToken: string := "",
    refreshToken: string := "",
    validToken: bool := true,
    createdAt: Option<nat> := None,
    updatedAt: Option<nat> := None,
    id: Option<int> := None): (t: UserToken)
    ensures t.discordUserId == discordUserId && t.id == id
    ensures t.accessToken == accessToken && t.refreshToken == refreshToken
    ensures t.validToken == validToken
    ensures createdAt.Some? ==> t.createdAt == createdAt.value
    ensures updatedAt.Some? ==> t.updatedAt == updatedAt.value
    ensures createdAt.None? ==> t.createdAt == clock
    ensures updatedAt.None? ==> t.updatedAt == clock
  {
    UserToken(id, discordUserId, accessToken, refreshToken, validToken,
              OrNow(createdAt, clock), OrNow(updatedAt, clock))
  }

  /** `UserToken.from_db(record)`. */
  function FromDb(clock: nat, r: Record): (t: UserToken)
    ensures t.id == r.id && t.discordUserId == r.discordUserId
    ensures t.accessToken == r.accessToken && t.refreshToken == r.refreshToken
    ensures t.validToken == r.validToken
    ensures t.createdAt == (if r.createdAt.Some? then r.createdAt.value else clock)
    ensures t.updatedAt == (if r.updatedAt.Some? then r.updatedAt.value else clock)
  {
    NewUserToken(clock, r.discordUserId, r.accessToken, r.refreshToken,
                 r.validToken, r.createdAt, r.updatedAt, r.id)
  }

  /** `UserToken.to_dict()`. */
  function ToDict(t: UserToken): (d: Record)
    ensures d.id == t.id && d.discordUserId == t.discordUserId
    ensures d.accessToken == t.accessToken && d.refreshToken == t.refreshToken
    ensures d.validToken == t.validToken
    ensures d.createdAt == Some(t.createdAt) && d.updatedAt == Some(t.updatedAt)
  {
    Record(t.id, t.discordUserId, t.accessToken, t.refreshToken, t.validToken,
           Some(t.createdAt), Some(t.updatedAt))
  }

  /** Python truthiness of a string. */
  predicate Truthy(s: string) {
    |s| > 0
  }

  /** `bool(self.access_token and self.refresh_token)`: `and` yields the
      access token when it is falsy and the refresh token otherwise. */
  predicate IsComplete(t: UserToken): (b: bool)
    ensures b <==> t.accessToken != "" && t.refreshToken != ""
  {
    Truthy(if !Truthy(t.accessToken) then t.accessToken else t.refreshToken)
  }

  /** A token built from a user id alone has empty tokens, is valid, and
      takes both timestamps from the clock. */
  lemma ConstructorDefaults(clock: nat, discordUserId: int)
    ensures var t := NewUserToken(clock, discordUserId);
      && t.accessToken == "" && t.refreshToken == "" && t.validToken
      && t.id.None? && t.createdAt == clock && t.updatedAt == clock
      && !IsComplete(t)
  {
  }

  /** `to_dict(from_db(r))` gives back every field of a record whose
      timestamps are set; a NULL timestamp comes back as the clock. */
  lemma RecordRoundTrip(clock: nat, r: Record)
    ensures var d := ToDict(FromDb(clock, r));
      && d.id == r.id && d.discordUserId == r.discordUserId
      && d.accessToken == r.accessToken && d.refreshToken == r.refreshToken
      && d.validToken == r.validToken
      && d.createdAt == Some(OrNow(r.createdAt, clock))
      && d.updatedAt == Some(OrNow(r.updatedAt, clock))
    ensures r.createdAt.Some? && r.updatedAt.Some? ==> ToDict(FromDb(clock, r)) == r
  {
  }

  /** `from_db(to_dict(t))` rebuilds `t` whatever the clock reads. */
  lemma TokenRoundTrip(clock: nat, t: UserToken)
    ensures FromDb(clock, ToDict(t)) == t
  {
  }
}

=== FILE: sequences.dfy ===
/** Sequence operations the SQL queries rely on: `WHERE` over an ordered
    result (Filter) and `ORDER BY key DESC` (SortDesc). SQL leaves the
    order of equal keys unspecified, so SortDesc is specified only up to
    that: sorted, and a permutation of its input. */
module Sequences {

  /** Elements of `xs` satisfying `keep`, in their original order. */
  function Filter<T(!new)>(xs: seq<T>, keep: T -> bool): (r: seq<T>)
    ensures |r| <= |xs|
    ensures forall x :: x in r <==> x in xs && keep(x)
    ensures forall x :: multiset(r)[x] == if keep(x) then multiset(xs)[x] else 0
  {
    if |xs| == 0 then []
    else
      assert xs == [xs[0]] + xs[1..];
      (if keep(xs[0]) then [xs[0]] else []) + Filter(xs[1..], keep)
  }

  lemma {:induction false} FilterAll<T(!new)>(xs: seq<T>, keep: T -> bool)
    requires forall i :: 0 <= i < |xs| ==> keep(xs[i])
    ensures Filter(xs, keep) == xs
  {
    if |xs| > 0 {
      FilterAll(xs[1..], keep);
      assert xs == [xs[0]] + xs[1..];
    }
  }

  lemma {:induction false} FilterConcat<T(!new)>(xs: seq<T>, ys: seq<T>, keep: T -> bool)
    ensures Filter(xs + ys, keep) == Filter(xs, keep) + Filter(ys, keep)
  {
    if |xs| > 0 {
      assert (xs + ys)[1..] == xs[1..] + ys;
      FilterConcat(xs[1..], ys, keep);
    } else {
      assert xs + ys == ys;
    }
  }

  /** `xs` ordered by `key`, largest first. */
  predicate SortedDesc<T>(xs: seq<T>, key: T -> int) {
    forall i, j :: 0 <= i < j < |xs| ==> key(xs[i]) >= key(xs[j])
  }

  /** Inserts `x` before the first element with a smaller key. */
  function InsertDesc<T(!new)>(x: T, xs: seq<T>, key: T -> int): (r: seq<T>)
    requires SortedDesc(xs, key)
    ensures SortedDesc(r, key)
    ensures multiset(r) == multiset(xs) + multiset{x}
    ensures forall y :: y in r <==> y == x || y in xs
  {
    if |xs| == 0 || key(x) >= key(xs[0]) then [x] + xs
    else
      assert xs == [xs[0]] + xs[1..];
      var rest := InsertDesc(x, xs[1..], key);
      assert forall y :: y in rest ==> key(y) <= key(xs[0]);
      [xs[0]] + rest
  }

  /** Insertion sort, descending by `key`. */
  function SortDesc<T(!new)>(xs: seq<T>, key: T -> int): (r: seq<T>)
    ensures SortedDesc(r, key)
    ensures multiset(r) == multiset(xs)
    ensures |r| == |xs|
  {
    if |xs| == 0 then []
    else
      assert xs == [xs[0]] + xs[1..];
      InsertDesc(xs[0], SortDesc(xs[1..], key), key)
  }
}

=== FILE: token_commands.dfy ===
/** The `/token` and `/remove-token` commands: the private-chat gate in
    front of the token service, and the reply chosen from the service's
    result. Replies are values; the chat channel is the one the command
    was issued in. */
module TokenCommands {
  import opened Common
  import opened Helpers
  import opened TokenService

  /** The replies of the cog, one constructor per message. */
  datatype Reply =
    | PrivateChatRequired
    | TokenUpdated
    | TokenError
    | TokenRemoved
    | TokenRemoveError

  /** The store after the command, the ephemeral reply, and whether the
      public "Tokens mis à jour" notice was posted in the channel. */
  datatype Outcome = Outcome(store: Store, reply: Reply, announced: bool)

  /** `token_command`: outside a private chat nothing is written; inside,
      the tokens are stored and the reply says whether the service
      succeeded. */
  function TokenCommand(s: Store, channel: Channel, uid: int, token: string, refreshToken: string, now: nat): (o: Outcome)
    ensures !IsPrivateChat(channel) ==> o == Outcome(s, PrivateChatRequired, false)
    ensures o.reply == TokenUpdated <==>
      IsPrivateChat(channel) && s.online && Varchar(token).Some? && Varchar(refreshToken).Some?
    ensures IsPrivateChat(channel) ==> o.reply in {TokenUpdated, TokenError}
    ensures o.announced <==> o.reply == TokenUpdated
    ensures o.reply != TokenUpdated ==> o.store == s
    ensures o.reply == TokenUpdated ==>
      && uid in o.store.rows
      && o.store.rows[uid].accessToken == Varchar(token).value
      && o.store.rows[uid].refreshToken == Varchar(refreshToken).value
      && o.store.rows[uid].validToken
    ensures OthersUnchanged(s, o.store, uid)
    ensures Wf(s) ==> Wf(o.store)
  {
    if !IsPrivateChat(channel) then Outcome(s, PrivateChatRequired, false)
    else
      var w := UpdateTokens(s, uid, token, refreshToken, now);
      if w.ok then Outcome(w.store, TokenUpdated, true)
      else Outcome(w.store, TokenError, false)
  }

  /** `remove_token_command`: the tokens are gone afterwards, but the
      success reply is only given when a row was actually deleted. */
  function RemoveTokenCommand(s: Store, channel: Channel, uid: int): (o: Outcome)
    ensures !IsPrivateChat(channel) ==> o == Outcome(s, PrivateChatRequired, false)
    ensures o.reply == TokenRemoved <==> IsPrivateChat(channel) && s.online && uid in s.rows
    ensures IsPrivateChat(channel) ==> o.reply in {TokenRemoved, TokenRemoveError}
    ensures !o.announced
    ensures IsPrivateChat(channel) && s.online ==> uid !in o.store.rows
    ensures !s.online ==> o.store == s
    ensures OthersUnchanged(s, o.store, uid)
    ensures Wf(s) ==> Wf(o.store)
  {
    if !IsPrivateChat(channel) then Outcome(s, PrivateChatRequired, false)
    else
      var w := RemoveUserTokens(s, uid);
      Outcome(w.store, if w.ok then TokenRemoved else TokenRemoveError, false)
  }

  /** Registering tokens and then removing them from a private chat of the
      same user succeeds both times and leaves no row for that user;
      removing once more is reported as an error. */
  lemma RegisterThenRemove(s: Store, channel: Channel, uid: int, token: string, refreshToken: string, now: nat)
    requires IsPrivateChat(channel) && s.online && Storable(token) && Storable(refreshToken)
    ensures var o1 := TokenCommand(s, channel, uid, token, refreshToken, now);
            var o2 := RemoveTokenCommand(o1.store, channel, uid);
            var o3 := RemoveTokenCommand(o2.store, channel, uid);
            && o1.reply == TokenUpdated
            && o2.reply == TokenRemoved
            && GetUserTokens(o2.store, uid) == NoRow
            && o3.reply == TokenRemoveError
            && o3.store == o2.store
  {
    var o1 := TokenCommand(s, channel, uid, token, refreshToken, now);
    assert o1.store.online;
    var o2 := RemoveTokenCommand(o1.store, channel, uid);
    assert o2.store.rows == o1.store.rows - {uid};
  }
}

=== FILE: token_service.dfy ===
/** `TokenService` over the `user_tokens` table. The table is a map keyed by
    `discord_user_id`, which is how the UNIQUE constraint on that column is
    carried over; `nextId` is the SERIAL sequence behind `id`; `online` says
    whether the pool can reach the server (every call takes its error path
    when it cannot). Each statement is a pure function from the store to
    the new store and the service's result; `now` is CURRENT_TIMESTAMP. */
module TokenService {
  import opened Common
  import opened Sequences
  import CommandTag
  import Models

  /** Both token columns are VARCHAR(255). */
  const MaxTokenLength: nat := 255

  datatype TokenRow = TokenRow(
    id: nat,
    discordUserId: int,
    accessToken: string,
    refreshToken: string,
    validToken: bool,
    createdAt: nat,
    updatedAt: nat)

  datatype Store = Store(rows: map<int, TokenRow>, nextId: nat, online: bool)

  /** Result of a writing call: the store afterwards and the boolean the
      service returns. */
  datatype Write = Write(store: Store, ok: bool)

  predicate Fits(t: string) {
    |t| <= MaxTokenLength
  }

  /** A token the column stores exactly as given: within the width and
      free of NUL characters. */
  predicate Storable(t: string) {
    Fits(t) && '\0' !in t
  }

  /** What the table guarantees of its contents: each row sits under its own
      user id, ids are distinct and were drawn from the sequence, and the
      token columns respect their declared width and hold no NUL. */
  predicate Wf(s: Store) {
    && (forall u :: u in s.rows ==>
          && s.rows[u].discordUserId == u
          && s.rows[u].id < s.nextId
          && Storable(s.rows[u].accessToken)
          && Storable(s.rows[u].refreshToken))
    && (forall u, v :: u in s.rows && v in s.rows && u != v ==> s.rows[u].id != s.rows[v].id)
  }

  /** Assigning a string to a VARCHAR(255) column: PostgreSQL refuses a
      NUL character in any text value; otherwise a longer string is an
      error unless every character past the limit is a space, in which case
      it is truncated. */
  function Varchar(t: string): (r: Option<string>)
    ensures r.Some? ==> Fits(r.value) && '\0' !in r.value
    ensures Fits(t) && '\0' !in t ==> r == Some(t)
    ensures r.Some? && !Fits(t) ==> r.value == t[..MaxTokenLength]
    ensures r.None? <==> '\0' in t || exists i :: MaxTokenLength <= i < |t| && t[i] != ' '
  {
    if '\0' in t then None
    else if Fits(t) then Some(t)
    else if forall i :: MaxTokenLength <= i < |t| ==> t[i] == ' ' then Some(t[..MaxTokenLength])
    else None
  }

  /** Every user other than `uid` has the same row (or none) in both stores. */
  ghost predicate OthersUnchanged(s: Store, s': Store, uid: int) {
    forall v :: v != uid ==>
      (v in s'.rows <==> v in s.rows) && (v in s.rows ==> s'.rows[v] == s.rows[v])
  }

  /** INSERT ... ON CONFLICT (discord_user_id) DO UPDATE: a user without a
      row gets `inserted` under a new id; a user with one gets `onConflict`
      applied to it. */
  function Upsert(s: Store, inserted: TokenRow, onConflict: TokenRow -> TokenRow): Store {
    var uid := inserted.discordUserId;
    if uid in s.rows then s.(rows := s.rows[uid := onConflict(s.rows[uid])])
    else s.(rows := s.rows[uid := inserted.(id := s.nextId)], nextId := s.nextId + 1)
  }

  /** What `get_user_tokens` yields: the row, None, or an exception it lets
      through. Only `asyncpg.PostgresError` is caught, and the error of a
      server that cannot be reached is not one, so it propagates. */
  datatype Fetched = Row(row: TokenRow) | NoRow | Raised

  /** `get_user_tokens`: the row stored under the user's id. */
  function GetUserTokens(s: Store, uid: int): (r: Fetched)
    ensures r.Raised? <==> !s.online
    ensures r.Row? <==> s.online && uid in s.rows
    ensures r.Row? ==> r.row == s.rows[uid]
  {
    if !s.online then Raised
    else if uid in s.rows then Row(s.rows[uid])
    else NoRow
  }

  /** `update_access_token`: inserts (uid, token, '', true) or, for a user
      who has a row, overwrites only the access token. */
  function UpdateAccessToken(s: Store, uid: int, accessToken: string, now: nat): (w: Write)
    ensures w.ok <==> s.online && Varchar(accessToken).Some?
    ensures !w.ok ==> w.store == s
    ensures w.ok && uid in s.rows ==>
      && uid in w.store.rows
      && w.store.rows[uid] == s.rows[uid].(accessToken := Varchar(accessToken).value, updatedAt := now)
    ensures w.ok && uid !in s.rows ==>
      && uid in w.store.rows
      && w.store.rows[uid] == TokenRow(s.nextId, uid, Varchar(accessToken).value, "", true, now, now)
    ensures OthersUnchanged(s, w.store, uid)
    ensures Wf(s) ==> Wf(w.store)
  {
    if !s.online then Write(s, false)
    else match Varchar(accessToken)
      case None => Write(s, false)
      case Some(a) =>
        Write(Upsert(s, TokenRow(0, uid, a, "", true, now, now),
                     (row: TokenRow) => row.(accessToken := a, updatedAt := now)), true)
  }

  /** `update_refresh_token`: the mirror image of `update_access_token`. */
  function UpdateRefreshToken(s: Store, uid: int, refreshToken: string, now: nat): (w: Write)
    ensures w.ok <==> s.online && Varchar(refreshToken).Some?
    ensures !w.ok ==> w.store == s
    ensures w.ok && uid in s.rows ==>
      && uid in w.store.rows
      && w.store.rows[uid] == s.rows[uid].(refreshToken := Varchar(refreshToken).value, updatedAt := now)
    ensures w.ok && uid !in s.rows ==>
      && uid in w.store.rows
      && w.store.rows[uid] == TokenRow(s.nextId, uid, "", Varchar(refreshToken).value, true, now, now)
    ensures OthersUnchanged(s, w.store, uid)
    ensures Wf(s) ==> Wf(w.store)
  {
    if !s.online then Write(s, false)
    else match Varchar(refreshToken)
      case None => Write(s, false)
      case Some(r) =>
        Write(Upsert(s, TokenRow(0, uid, "", r, true, now, now),
                     (row: TokenRow) => row.(refreshToken := r, updatedAt := now)), true)
  }

  /** `update_tokens`: the user ends up with exactly one row, holding both
      new tokens and marked valid. An existing row keeps its id and
      creation time. */
  function UpdateTokens(s: Store, uid: int, accessToken: string, refreshToken: string, now: nat): (w: Write)
    ensures w.ok <==> s.online && Varchar(accessToken).Some? && Varchar(refreshToken).Some?
    ensures !w.ok ==> w.store == s
    ensures w.ok ==>
      && uid in w.store.rows
      && w.store.rows[uid].accessToken == Varchar(accessToken).value
      && w.store.rows[uid].refreshToken == Varchar(refreshToken).value
      && w.store.rows[uid].validToken
      && w.store.rows[uid].updatedAt == now
    ensures w.ok && uid in s.rows ==>
      && |w.store.rows| == |s.rows|
      && w.store.rows[uid].id == s.rows[uid].id
      && w.store.rows[uid].createdAt == s.rows[uid].createdAt
    ensures w.ok && uid !in s.rows ==>
      && |w.store.rows| == |s.rows| + 1
      && w.store.rows[uid].id == s.nextId
      && w.store.rows[uid].createdAt == now
    ensures OthersUnchanged(s, w.store, uid)
    ensures Wf(s) ==> Wf(w.store)
  {
    if !s.online then Write(s, false)
    else match (Varchar(accessToken), Varchar(refreshToken))
      case (Some(a), Some(r)) =>
        Write(Upsert(s, TokenRow(0, uid, a, r, true, now, now),
                     (row: TokenRow) => row.(accessToken := a, refreshToken := r, validToken := true, updatedAt := now)), true)
      case _ => Write(s, false)
  }

  /** `remove_user_tokens`: DELETE by user id; true iff the tag says
      exactly one row went. */
  function RemoveUserTokens(s: Store, uid: int): (w: Write)
    ensures w.ok <==> s.online && uid in s.rows
    ensures !s.online ==> w.store == s
    ensures s.online ==> uid !in w.store.rows && |w.store.rows| == |s.rows| - (if uid in s.rows then 1 else 0)
    ensures OthersUnchanged(s, w.store, uid)
    ensures Wf(s) ==> Wf(w.store)
  {
    if !s.online then Write(s, false)
    else
      var deleted := if uid in s.rows then 1 else 0;
      var tag := CommandTag.Tag("DELETE", deleted);
      CommandTag.TagIsOne("DELETE", deleted);
      Write(s.(rows := s.rows - {uid}), tag == "DELETE 1")
  }

  /** `update_token_validity`: sets the flag and the update time of the
      user's row; true iff the tag says exactly one row was updated. */
  function UpdateTokenValidity(s: Store, uid: int, isValid: bool, now: nat): (w: Write)
    ensures w.ok <==> s.online && uid in s.rows
    ensures !w.ok ==> w.store == s
    ensures w.ok ==>
      && uid in w.store.rows
      && w.store.rows[uid] == s.rows[uid].(validToken := isValid, updatedAt := now)
    ensures OthersUnchanged(s, w.store, uid)
    ensures Wf(s) ==> Wf(w.store)
  {
    if !s.online then Write(s, false)
    else
      var updated := if uid in s.rows then 1 else 0;
      var tag := CommandTag.Tag("UPDATE", updated);
      CommandTag.TagIsOne("UPDATE", updated);
      var rows := if uid in s.rows then s.rows[uid := s.rows[uid].(validToken := isValid, updatedAt := now)] else s.rows;
      Write(s.(rows := rows), tag == "UPDATE 1")
  }

  /** The fetched row as the seven-field record `UserToken.from_db` reads. */
  function ToRecord(row: TokenRow): Models.Record {
    Models.Record(Some(row.id), row.discordUserId, row.accessToken, row.refreshToken,
                  row.validToken, Some(row.createdAt), Some(row.updatedAt))
  }

  /** A row fetched by `get_user_tokens` survives `from_db` then `to_dict`. */
  lemma FetchedRowRoundTrip(clock: nat, s: Store, uid: int)
    requires GetUserTokens(s, uid).Row?
    ensures var rec := ToRecord(GetUserTokens(s, uid).row);
      Models.ToDict(Models.FromDb(clock, rec)) == rec
  {
    Models.RecordRoundTrip(clock, ToRecord(GetUserTokens(s, uid).row));
  }

  /** After a successful `update_tokens` the user's row reads back the
      tokens that were stored and is complete iff both are non-empty. A row
      first created by `update_access_token` has no refresh token and so is
      never complete. */
  lemma StoredTokensReadBack(clock: nat, s: Store, uid: int, a: string, r: string, now: nat)
    requires Storable(a) && Storable(r)
    ensures var w := UpdateTokens(s, uid, a, r, now);
      w.ok == s.online
      && (w.ok ==>
            var t := Models.FromDb(clock, ToRecord(GetUserTokens(w.store, uid).row));
            t.accessToken == a && t.refreshToken == r && t.validToken
            && (Models.IsComplete(t) <==> a != "" && r != ""))
    ensures var w := UpdateAccessToken(s, uid, a, now);
      w.ok && uid !in s.rows ==>
        !Models.IsComplete(Models.FromDb(clock, ToRecord(GetUserTokens(w.store, uid).row)))
  {
  }

  /** A token holding a NUL character is refused by the server, whatever
      its length: the write reports failure and the table is unchanged. */
  lemma NulTokenRefused(s: Store, uid: int, a: string, r: string, now: nat)
    requires '\0' in a || '\0' in r
    ensures !UpdateTokens(s, uid, a, r, now).ok && UpdateTokens(s, uid, a, r, now).store == s
    ensures '\0' in a ==> !UpdateAccessToken(s, uid, a, now).ok && UpdateAccessToken(s, uid, a, now).store == s
    ensures '\0' in r ==> !UpdateRefreshToken(s, uid, r, now).ok && UpdateRefreshToken(s, uid, r, now).store == s
  {
  }

  /** Removing leaves nothing to fetch; a second removal reports false. */
  lemma RemoveThenGet(s: Store, uid: int)
    ensures !GetUserTokens(RemoveUserTokens(s, uid).store, uid).Row?
    ensures !RemoveUserTokens(RemoveUserTokens(s, uid).store, uid).ok
  {
  }

  /** Two successive `update_tokens` leave one row for the user, the same
      row as after the first call, holding the second call's values. */
  lemma UpdateTokensTwice(s: Store, uid: int, a1: string, r1: string, t1: nat,
                          a2: string, r2: string, t2: nat)
    requires Storable(a1) && Storable(r1) && Storable(a2) && Storable(r2)
    requires s.online
    ensures var w1 := UpdateTokens(s, uid, a1, r1, t1);
      var w2 := UpdateTokens(w1.store, uid, a2, r2, t2);
      && w1.ok && w2.ok
      && |w2.store.rows| == |w1.store.rows|
      && w2.store.rows[uid].id == w1.store.rows[uid].id
      && GetUserTokens(w2.store, uid) == Row(w1.store.rows[uid].(accessToken := a2, refreshToken := r2, updatedAt := t2))
  {
  }

  // ---------------------------------------------------------------------
  // Queries returning several rows

  /** Rows satisfying `keep` (a WHERE clause), still keyed by user id. */
  function Where(rows: map<int, TokenRow>, keep: TokenRow -> bool): (m: map<int, TokenRow>)
    ensures forall u :: u in m <==> u in rows && keep(rows[u])
    ensures forall u :: u in m ==> m[u] == rows[u]
  {
    map u | u in rows && keep(rows[u]) :: rows[u]
  }

  function UpdatedAt(row: TokenRow): int {
    row.updatedAt
  }

  /** Reads every row of the table once, in no particular order. */
  method ScanRows(rows: map<int, TokenRow>) returns (r: seq<TokenRow>)
    ensures multiset(r) == multiset(rows.Values)
  {
    r := [];
    var todo := rows.Values;
    while todo != {}
      invariant todo <= rows.Values
      invariant multiset(r) + multiset(todo) == multiset(rows.Values)
      decreases |todo|
    {
      var row :| row in todo;
      r := r + [row];
      todo := todo - {row};
    }
  }

  /** The rows of `rows` satisfying `keep`, newest update first. */
  method SelectNewestFirst(rows: map<int, TokenRow>, keep: TokenRow -> bool) returns (r: seq<TokenRow>)
    ensures SortedDesc(r, UpdatedAt)
    ensures multiset(r) == multiset(Where(rows, keep).Values)
  {
    var scanned := ScanRows(Where(rows, keep));
    r := SortDesc(scanned, UpdatedAt);
  }

  predicate IsValid(row: TokenRow) {
    row.validToken
  }

  /** `get_all_valid_tokens`: every valid row exactly once, newest update
      first; the empty list on a database error. */
  method GetAllValidTokens(s: Store) returns (r: seq<TokenRow>)
    ensures !s.online ==> r == []
    ensures s.online ==> SortedDesc(r, UpdatedAt)
    ensures s.online ==> multiset(r) == multiset(Where(s.rows, IsValid).Values)
    ensures forall i :: 0 <= i < |r| ==> r[i].validToken && r[i] in s.rows.Values
    ensures s.online ==> forall u :: u in s.rows && s.rows[u].validToken ==> s.rows[u] in r
  {
    if !s.online {
      return [];
    }
    r := SelectNewestFirst(s.rows, IsValid);
    forall i | 0 <= i < |r|
      ensures r[i].validToken && r[i] in s.rows.Values
    {
      assert r[i] in multiset(r);
    }
    forall u | u in s.rows && s.rows[u].validToken
      ensures s.rows[u] in r
    {
      assert s.rows[u] in Where(s.rows, IsValid).Values;
      assert s.rows[u] in multiset(r);
    }
  }

  // ---------------------------------------------------------------------
  // Aggregates

  function ValidUsers(rows: map<int, TokenRow>): set<int> {
    set u | u in rows && rows[u].validToken
  }

  function InvalidUsers(rows: map<int, TokenRow>): set<int> {
    set u | u in rows && !rows[u].validToken
  }

  /** The aggregate row of the statistics query, with SQL NULLs: SUM and
      MAX over no rows are NULL, COUNT is 0. */
  datatype SqlStats = SqlStats(
    totalTokens: nat,
    validTokens: Option<nat>,
    invalidTokens: Option<nat>,
    uniqueUsers: nat,
    lastUpdate: Option<nat>)

  /** Users among `done` whose row has the given validity. */
  function WithValidity(rows: map<int, TokenRow>, done: set<int>, valid: bool): set<int> {
    set u | u in done && u in rows && rows[u].validToken == valid
  }

  lemma WithValidityStep(rows: map<int, TokenRow>, done: set<int>, u: int, valid: bool)
    requires u in rows && u !in done
    ensures WithValidity(rows, done + {u}, valid)
      == WithValidity(rows, done, valid) + (if rows[u].validToken == valid then {u} else {})
  {
  }

  /** The table as a set of (user id, row) entries. */
  function Entries(rows: map<int, TokenRow>): set<(int, TokenRow)> {
    set u | u in rows :: (u, rows[u])
  }

  /** The entries of users not yet in `done`. */
  ghost predicate Remaining(rows: map<int, TokenRow>, todo: set<(int, TokenRow)>, done: set<int>) {
    && done <= rows.Keys
    && (forall e :: e in todo ==> e.0 in rows && e.0 !in done && e.1 == rows[e.0])
    && (forall u :: u in rows && u !in done ==> (u, rows[u]) in todo)
  }

  lemma RemainingStep(rows: map<int, TokenRow>, todo: set<(int, TokenRow)>, done: set<int>, e: (int, TokenRow))
    requires Remaining(rows, todo, done) && e in todo
    ensures Remaining(rows, todo - {e}, done + {e.0})
    ensures e.0 in rows && e.0 !in done && e.1 == rows[e.0]
  {
  }

  lemma RemainingDone(rows: map<int, TokenRow>, todo: set<(int, TokenRow)>, done: set<int>)
    requires Remaining(rows, todo, done) && todo == {}
    ensures done == rows.Keys
  {
    forall u | u in rows ensures u in done {
      var entry := (u, rows[u]);
      assert entry in todo || u in done;
    }

  }

  lemma RemainingStart(rows: map<int, TokenRow>)
    ensures Remaining(rows, Entries(rows), {})
  {
  }

  /** COUNT(*) and the two SUM(CASE WHEN ...) columns, as plain counts. */
  method CountRows(rows: map<int, TokenRow>) returns (total: nat, valid: nat, invalid: nat)
    ensures total == |rows|
    ensures valid == |ValidUsers(rows)|
    ensures invalid == |InvalidUsers(rows)|
  {
    var todo := Entries(rows);
    ghost var done: set<int> := {};
    RemainingStart(rows);
    total, valid, invalid := 0, 0, 0;
    while todo != {}
      invariant Remaining(rows, todo, done)
      invariant total == |done|
      invariant valid == |WithValidity(rows, done, true)|
      invariant invalid == |WithValidity(rows, done, false)|
      decreases |todo|
    {
      var e :| e in todo;
      RemainingStep(rows, todo, done, e);
      WithValidityStep(rows, done, e.0, true);
      WithValidityStep(rows, done, e.0, false);
      total := total + 1;
      if e.1.validToken {
        valid := valid + 1;
      } else {
        invalid := invalid + 1;
      }
      todo := todo - {e};
      done := done + {e.0};
    }
    RemainingDone(rows, todo, done);
    assert |rows.Keys| == |rows|;
    assert WithValidity(rows, done, true) == ValidUsers(rows);
    assert WithValidity(rows, done, false) == InvalidUsers(rows);
  }

  /** The user ids held by the rows of `done`. */
  function UserIds(rows: map<int, TokenRow>, done: set<int>): set<int> {
    set u | u in done && u in rows :: rows[u].discordUserId
  }

  lemma UserIdsStep(rows: map<int, TokenRow>, done: set<int>, u: int)
    requires u in rows
    ensures UserIds(rows, done + {u}) == UserIds(rows, done) + {rows[u].discordUserId}
  {
    var l, r := UserIds(rows, done + {u}), UserIds(rows, done) + {rows[u].discordUserId};
    forall x | x in r ensures x in l {
      if x != rows[u].discordUserId {
        var v :| v in done && v in rows && rows[v].discordUserId == x;
        assert v in done + {u};
      }
    }
  }

  /** COUNT(DISTINCT discord_user_id). */
  method CountDistinctUsers(rows: map<int, TokenRow>) returns (n: nat)
    ensures n == |UserIds(rows, rows.Keys)|
  {
    var todo := Entries(rows);
    ghost var done: set<int> := {};
    RemainingStart(rows);
    var seen: set<int> := {};
    while todo != {}
      invariant Remaining(rows, todo, done)
      invariant seen == UserIds(rows, done)
      decreases |todo|
    {
      var e :| e in todo;
      RemainingStep(rows, todo, done, e);
      UserIdsStep(rows, done, e.0);
      seen := seen + {e.1.discordUserId};
      todo := todo - {e};
      done := done + {e.0};
    }
    RemainingDone(rows, todo, done);
    n := |seen|;
  }

  /** MAX(updated_at): NULL on an empty table. */
  method MaxUpdatedAt(rows: map<int, TokenRow>) returns (last: Option<nat>)
    ensures last.None? <==> |rows| == 0
    ensures last.Some? ==>
      (exists u :: u in rows && rows[u].updatedAt == last.value)
      && (forall u :: u in rows ==> rows[u].updatedAt <= last.value)
  {
    var todo := Entries(rows);
    ghost var done: set<int> := {};
    ghost var newest: int := 0;
    RemainingStart(rows);
    last := None;
    while todo != {}
      invariant Remaining(rows, todo, done)
      invariant last.None? <==> done == {}
      invariant last.Some? ==>
        && newest in done && rows[newest].updatedAt == last.value
        && (forall u :: u in done ==> rows[u].updatedAt <= last.value)
      decreases |todo|
    {
      var e :| e in todo;
      RemainingStep(rows, todo, done, e);
      if last.None? || e.1.updatedAt > last.value {
        last := Some(e.1.updatedAt);
        newest := e.0;
      }
      todo := todo - {e};
      done := done + {e.0};
    }
    RemainingDone(rows, todo, done);
    assert |rows.Keys| == |rows|;
  }

  /** The statistics query's single result row. */
  method Aggregate(rows: map<int, TokenRow>) returns (st: SqlStats)
    ensures st.totalTokens == |rows|
    ensures st.validTokens == (if |rows| == 0 then None else Some(|ValidUsers(rows)|))
    ensures st.invalidTokens == (if |rows| == 0 then None else Some(|InvalidUsers(rows)|))
    ensures st.uniqueUsers == |UserIds(rows, rows.Keys)|
    ensures st.lastUpdate.None? <==> |rows| == 0
    ensures st.lastUpdate.Some? ==>
      (exists u :: u in rows && rows[u].updatedAt == st.lastUpdate.value)
      && (forall u :: u in rows ==> rows[u].updatedAt <= st.lastUpdate.value)
  {
    var total, valid, invalid := CountRows(rows);
    var users := CountDistinctUsers(rows);
    var last := MaxUpdatedAt(rows);
    st := SqlStats(total,
                   if total == 0 then None else Some(valid),
                   if total == 0 then None else Some(invalid),
                   users, last);
  }

  /** The dictionary `get_tokens_stats` returns. */
  datatype TokenStats = TokenStats(
    totalTokens: nat,
    validTokens: nat,
    invalidTokens: nat,
    uniqueUsers: nat,
    lastUpdate: Option<nat>)

  /** Python's `x or 0` on a nullable count. */
  function OrZero(x: Option<nat>): nat {
    match x
    case Some(n) => n
    case None => 0
  }

  /** `get_tokens_stats`: valid and invalid counts partition the table, every
      count is 0 on an empty table, and every field is 0/None on error. */
  method GetTokensStats(s: Store) returns (st: TokenStats)
    ensures !s.online ==> st == TokenStats(0, 0, 0, 0, None)
    ensures s.online ==> st.totalTokens == |s.rows|
    ensures s.online ==> st.validTokens == |ValidUsers(s.rows)|
    ensures s.online ==> st.validTokens + st.invalidTokens == st.totalTokens
    ensures s.online && Wf(s) ==> st.uniqueUsers == st.totalTokens
    ensures s.online ==> (st.lastUpdate.None? <==> |s.rows| == 0)
    ensures s.online && st.lastUpdate.Some? ==>
      (exists u :: u in s.rows && s.rows[u].updatedAt == st.lastUpdate.value)
      && (forall u :: u in s.rows ==> s.rows[u].updatedAt <= st.lastUpdate.value)
    ensures |s.rows| == 0 ==> st == TokenStats(0, 0, 0, 0, None)
  {
    if !s.online {
      return TokenStats(0, 0, 0, 0, None);
    }
    var agg := Aggregate(s.rows);
    st := TokenStats(agg.totalTokens, OrZero(agg.validTokens), OrZero(agg.invalidTokens),
                     agg.uniqueUsers, agg.lastUpdate);
    PartitionCount(s.rows);
    if Wf(s) {
      var ids := UserIds(s.rows, s.rows.Keys);
      forall u | u in s.rows.Keys ensures u in ids {
        assert s.rows[u].discordUserId == u;
      }
      assert ids == s.rows.Keys;
      assert |s.rows.Keys| == |s.rows|;
    }
  }

  /** Every row is either valid or invalid. */
  lemma PartitionCount(rows: map<int, TokenRow>)
    ensures |ValidUsers(rows)| + |InvalidUsers(rows)| == |rows|
  {
    assert ValidUsers(rows) + InvalidUsers(rows) == rows.Keys;
    assert ValidUsers(rows) !! InvalidUsers(rows);
    assert |rows.Keys| == |rows|;
  }
}

=== FILE: values.dfy ===
/** The JSON/YAML document tree that configuration files and vote payloads
    are parsed into. A dict is kept as its ordered entry list, as a Python
    dict iterates; its keys are distinct when it comes from a parser. */
module Values {

  datatype Value =
    | Null
    | Bool(b: bool)
    | Int(i: int)
    | Str(s: string)
    /** Any other scalar (float, date, ...), carried as its text. */
    | Opaque(repr: string)
    | List(items: seq<Value>)
    | Dict(entries: seq<(string, Value)>)

  /** Keys of a dict's entries, in order. */
  function Keys(entries: seq<(string, Value)>): (ks: seq<string>)
    ensures |ks| == |entries|
    ensures forall i :: 0 <= i < |entries| ==> ks[i] == entries[i].0
  {
    seq(|entries|, i requires 0 <= i < |entries| => entries[i].0)
  }

  /** Python dicts never hold a key twice. */
  predicate DistinctKeys(entries: seq<(string, Value)>) {
    forall i, j :: 0 <= i < j < |entries| ==> entries[i].0 != entries[j].0
  }
}

=== FILE: vote_commands.dfy ===
/** The `/create_vote` and `/vote_stats` commands: the validation of the
    two attachments in front of `create_vote`, and the ranking of the
    active votes. */
module VoteCommands {
  import opened Common
  import opened Sequences
  import opened Values
  import opened VoteService

  /** The outcome of `await json_file.read()` followed by `json.loads`.
      `Malformed` is a `JSONDecodeError`. `Unreadable` is every other
      failure: the download failing, bytes that are not valid UTF-8
      (`UnicodeDecodeError`), or an integer literal too long to convert
      (`ValueError`). The command answers all of these the same way. */
  datatype JsonContent = Parsed(value: Value) | Malformed | Unreadable

  /** An uploaded file; the platform may report no content type. */
  datatype Attachment = Attachment(filename: string, contentType: Option<string>, url: string, content: JsonContent)

  datatype Reply =
    | NotAnImage
    | NotJsonFile
    | InvalidJson
    | Unexpected
    | VoteCreated(id: nat)
    | CreationFailed
    /** `content_type` is None: `.startswith` raises before any reply. */
    | Unhandled

  datatype CommandOutcome = CommandOutcome(guild: Guild, table: VoteTable, reply: Reply)

  predicate IsImage(a: Attachment) {
    a.contentType.Some? && StartsWith(a.contentType.value, "image/")
  }

  predicate IsJsonFile(a: Attachment) {
    EndsWith(a.filename, ".json")
  }

  /** `create_vote` in the cog: the image is checked first, then the JSON
      file's name, then its content; only then is the service called. */
  function CreateVoteCommand(g: Guild, t: VoteTable, fx: Effects, title: string, imageName: string,
                             image: Attachment, jsonFile: Attachment, coordX: int, coordZ: int,
                             user: int, now: nat): (o: CommandOutcome)
    ensures image.contentType.None? ==> o == CommandOutcome(g, t, Unhandled)
    ensures image.contentType.Some? && !IsImage(image) ==> o == CommandOutcome(g, t, NotAnImage)
    ensures IsImage(image) && !IsJsonFile(jsonFile) ==> o == CommandOutcome(g, t, NotJsonFile)
    ensures IsImage(image) && IsJsonFile(jsonFile) && jsonFile.content.Malformed? ==> o == CommandOutcome(g, t, InvalidJson)
    ensures IsImage(image) && IsJsonFile(jsonFile) && jsonFile.content.Unreadable? ==> o == CommandOutcome(g, t, Unexpected)
    ensures o.table != t ==> IsImage(image) && IsJsonFile(jsonFile) && jsonFile.content.Parsed?
    ensures o.reply.VoteCreated? <==>
      IsImage(image) && IsJsonFile(jsonFile) && jsonFile.content.Parsed?
      && (FindVotesChannel(g.textChannels).Some? || fx.newChannel.Some?)
      && fx.message.Some? && fx.reactionAdded && t.online && JsonbAccepts(jsonFile.content.value)
    ensures o.reply.VoteCreated? ==>
      && o.reply.id == t.nextId
      && |o.table.rows| == |t.rows| + 1
      && o.table.rows[|t.rows|].jsonData == jsonFile.content.value
      && o.table.rows[|t.rows|].imageUrl == image.url
      && o.table.rows[|t.rows|].createdBy == user
      && o.table.rows[|t.rows|].voteCount == 0
      && o.table.rows[|t.rows|].isActive
  {
    if image.contentType.None? then CommandOutcome(g, t, Unhandled)
    else if !IsImage(image) then CommandOutcome(g, t, NotAnImage)
    else if !IsJsonFile(jsonFile) then CommandOutcome(g, t, NotJsonFile)
    else match jsonFile.content
      case Unreadable => CommandOutcome(g, t, Unexpected)
      case Malformed => CommandOutcome(g, t, InvalidJson)
      case Parsed(data) =>
        var r := CreateVote(g, t, fx, title, imageName, image.url, data, coordX, coordZ, user, now);
        CommandOutcome(r.guild, r.table, if r.created.Some? then VoteCreated(r.created.value.id) else CreationFailed)
  }

  /** A payload holding a non-finite number passes every check of the
      command, but the INSERT refuses it: the reply is a failure and no row
      is added, even with every platform call succeeding. */
  lemma NonFinitePayloadFails(g: Guild, t: VoteTable, fx: Effects, title: string, imageName: string,
                              image: Attachment, jsonFile: Attachment, coordX: int, coordZ: int,
                              user: int, now: nat)
    requires IsImage(image) && IsJsonFile(jsonFile)
    requires jsonFile.content == Parsed(List([Opaque("NaN")]))
    ensures var o := CreateVoteCommand(g, t, fx, title, imageName, image, jsonFile, coordX, coordZ, user, now);
      o.reply == CreationFailed && o.table == t
  {
    assert !JsonbAccepts(Opaque("NaN"));
    assert List([Opaque("NaN")]).items[0] == Opaque("NaN");
  }

  // ---------------------------------------------------------------------
  // /vote_stats

  function VoteCount(v: VoteRow): int {
    v.voteCount
  }

  /** One field of the ranking embed: `#rank title`, the count and the
      creation date. */
  datatype Entry = Entry(rank: nat, vote: VoteRow)

  datatype StatsReply = NoActiveVotes | Ranking(entries: seq<Entry>) | StatsFailed

  function Votes(entries: seq<Entry>): (vs: seq<VoteRow>)
    ensures |vs| == |entries|
    ensures forall i :: 0 <= i < |entries| ==> vs[i] == entries[i].vote
  {
    seq(|entries|, i requires 0 <= i < |entries| => entries[i].vote)
  }

  /** Numbers the votes from 1 in their given order. */
  function Rank(ranked: seq<VoteRow>): (entries: seq<Entry>)
    ensures Votes(entries) == ranked
    ensures forall i :: 0 <= i < |entries| ==> entries[i].rank == i + 1
  {
    var entries := seq(|ranked|, i requires 0 <= i < |ranked| => Entry(i + 1, ranked[i]));
    assert Votes(entries) == ranked;
    entries
  }

  lemma SameElements<T>(xs: seq<T>, ys: seq<T>)
    requires multiset(xs) == multiset(ys)
    ensures forall v :: v in xs <==> v in ys
  {
    forall v ensures v in xs <==> v in ys {
      assert v in xs <==> v in multiset(xs);
      assert v in ys <==> v in multiset(ys);
    }
  }

  /** What selecting the active votes keeps. */
  lemma ActiveSelection(rows: seq<VoteRow>)
    ensures var active := Filter(rows, IsActive);
      |active| == 0 <==> forall i :: 0 <= i < |rows| ==> !rows[i].isActive
  {
    var active := Filter(rows, IsActive);
    if |active| > 0 {
      assert active[0] in rows;
    }
  }

  /** `vote_stats`: the active votes by descending count, numbered from 1.
      The command has no error handling, so a database error surfaces as
      an unhandled failure. */
  function VoteStats(t: VoteTable): (r: StatsReply)
    ensures r == StatsFailed <==> !t.online
    ensures r == NoActiveVotes <==> t.online && forall i :: 0 <= i < |t.rows| ==> !t.rows[i].isActive
    ensures r.Ranking? ==>
      && |r.entries| > 0
      && (forall i :: 0 <= i < |r.entries| ==> r.entries[i].rank == i + 1)
      && SortedDesc(Votes(r.entries), VoteCount)
      && multiset(Votes(r.entries)) == multiset(Filter(t.rows, IsActive))
      && (forall v :: v in Votes(r.entries) <==> v in t.rows && v.isActive)
  {
    if !t.online then StatsFailed
    else
      var active := Filter(t.rows, IsActive);
      var ranked := SortDesc(active, VoteCount);
      ActiveSelection(t.rows);
      SameElements(ranked, active);
      if |ranked| == 0 then NoActiveVotes
      else
        var entries := Rank(ranked);
        Ranking(entries)
  }

  /** The stats scenario: active votes with 3 and 5 votes are listed as
      #1 with 5 votes and #2 with 3 votes. */
  lemma TwoVotesRanked(a: VoteRow, b: VoteRow)
    requires a.isActive && b.isActive && a.voteCount == 5 && b.voteCount == 3
    ensures VoteStats(VoteTable([b, a], 0, true)) == Ranking([Entry(1, a), Entry(2, b)])
  {
    var rows := [b, a];
    assert rows[1..] == [a];
    assert [a][1..] == [];
    assert Filter([a], IsActive) == [a];
    assert Filter(rows, IsActive) == rows;
    assert SortDesc([a], VoteCount) == [a];
    assert InsertDesc(b, [a], VoteCount) == [a, b];
    assert SortDesc(rows, VoteCount) == [a, b];
    assert Rank([a, b]) == [Entry(1, a), Entry(2, b)];
  }
}

=== FILE: vote_service.dfy ===
/** `VoteService`: one firing of the `update_vote_counts` poller, and
    `create_vote`. The `votes` table is a sequence of rows in scan order;
    the platform is an abstract snapshot of what fetching each vote's
    message would yield at the time of the pass. */
module VoteService {
  import opened Common
  import opened Sequences
  import Values

  /** The reaction the bot seeds on every vote message and counts. */
  const Checkmark: string := "✅"

  /** Name of the channel votes are posted in. */
  const VotesChannelName: string := "votes"

  datatype VoteRow = VoteRow(
    id: nat,
    title: string,
    imageName: string,
    imageUrl: string,
    jsonData: Values.Value,
    channelId: int,
    messageId: int,
    createdBy: int,
    coordX: int,
    coordZ: int,
    voteCount: int,
    isActive: bool,
    createdAt: nat,
    updatedAt: nat)

  /** The table, the SERIAL sequence behind `id`, and whether the pool can
      reach the server. */
  datatype VoteTable = VoteTable(rows: seq<VoteRow>, nextId: nat, online: bool)

  /** Ids are drawn from the sequence, so no two rows share one. */
  predicate UniqueIds(rows: seq<VoteRow>) {
    forall i, j :: 0 <= i < |rows| && 0 <= j < |rows| && i != j ==> rows[i].id != rows[j].id
  }

  predicate IsActive(v: VoteRow) {
    v.isActive
  }

  // ---------------------------------------------------------------------
  // Reading the platform

  datatype Reaction = Reaction(emoji: string, count: nat)

  /** What `channel.fetch_message` does: return the message's reactions,
      raise NotFound, or raise any other error. */
  datatype Fetch = Found(reactions: seq<Reaction>) | NotFound | Failed

  /** The channels the bot can see, and for each the outcome of fetching
      each message id; an id a channel does not list is not found. */
  datatype Platform = Platform(channels: map<int, map<int, Fetch>>)

  /** `reaction.count - 1` for the first ✅ reaction (the bot's own seed
      reaction is not a vote), 0 when there is none. */
  function Tally(reactions: seq<Reaction>): (n: int)
    ensures (forall i :: 0 <= i < |reactions| ==> reactions[i].emoji != Checkmark) ==> n == 0
    ensures forall i :: (&& 0 <= i < |reactions|
                         && reactions[i].emoji == Checkmark
                         && (forall j :: 0 <= j < i ==> reactions[j].emoji != Checkmark))
                        ==> n == reactions[i].count - 1
    ensures n >= -1
  {
    if |reactions| == 0 then 0
    else if reactions[0].emoji == Checkmark then reactions[0].count - 1
    else Tally(reactions[1..])
  }

  /** A seeded reaction is counted at least once, so the tally is never
      negative. */
  lemma {:induction false} TallyNonNegative(reactions: seq<Reaction>)
    requires forall i :: 0 <= i < |reactions| ==> reactions[i].count >= 1
    ensures Tally(reactions) >= 0
  {
    if |reactions| > 0 && reactions[0].emoji != Checkmark {
      TallyNonNegative(reactions[1..]);
    }
  }

  /** What the pass does with one selected vote: skip it (channel not
      visible, or message not found), write a tally, or abort the pass. */
  datatype Observation = Skip | Count(n: int) | Abort

  function Observe(p: Platform, v: VoteRow): (o: Observation)
    ensures v.channelId !in p.channels ==> o == Skip
    ensures o.Abort? <==> v.channelId in p.channels && v.messageId in p.channels[v.channelId]
                           && p.channels[v.channelId][v.messageId] == Failed
    ensures o.Count? <==> v.channelId in p.channels && v.messageId in p.channels[v.channelId]
                           && p.channels[v.channelId][v.messageId].Found?
    ensures o.Count? ==> o.n == Tally(p.channels[v.channelId][v.messageId].reactions)
  {
    if v.channelId !in p.channels then Skip
    else if v.messageId !in p.channels[v.channelId] then Skip
    else match p.channels[v.channelId][v.messageId]
      case Found(reactions) => Count(Tally(reactions))
      case NotFound => Skip
      case Failed => Abort
  }

  // ---------------------------------------------------------------------
  // Writing a tally

  /** The two columns a tally write sets. */
  function Stamp(v: VoteRow, count: int, now: nat): VoteRow {
    v.(voteCount := count, updatedAt := now)
  }

  /** Two rows that differ at most in `vote_count` and `updated_at`. */
  predicate SameExceptTally(a: VoteRow, b: VoteRow) {
    a.(voteCount := 0, updatedAt := 0) == b.(voteCount := 0, updatedAt := 0)
  }

  /** `UPDATE votes SET vote_count = count, updated_at = now WHERE id = id`. */
  function SetVoteCount(rows: seq<VoteRow>, id: nat, count: int, now: nat): (r: seq<VoteRow>)
    ensures |r| == |rows|
    ensures forall i :: 0 <= i < |rows| ==> SameExceptTally(rows[i], r[i])
    ensures forall i :: 0 <= i < |rows| && rows[i].id == id ==> r[i].voteCount == count && r[i].updatedAt == now
    ensures forall i :: 0 <= i < |rows| && rows[i].id != id ==> r[i] == rows[i]
  {
    seq(|rows|, i requires 0 <= i < |rows| => if rows[i].id == id then Stamp(rows[i], count, now) else rows[i])
  }

  // ---------------------------------------------------------------------
  // One pass

  /** The loop over the selected votes: the rows afterwards and whether an
      error cut the pass short. Writes made before the error stay. */
  function RunPass(rows: seq<VoteRow>, selected: seq<VoteRow>, p: Platform, now: nat): (r: (seq<VoteRow>, bool))
    ensures |r.0| == |rows|
    ensures forall i :: 0 <= i < |rows| ==> SameExceptTally(rows[i], r.0[i])
    ensures forall i :: 0 <= i < |rows| && (forall k :: 0 <= k < |selected| ==> selected[k].id != rows[i].id) ==>
      r.0[i] == rows[i]
    ensures r.1 <==> exists k :: 0 <= k < |selected| && Observe(p, selected[k]).Abort?
    decreases |selected|
  {
    if |selected| == 0 then (rows, false)
    else
      var v := selected[0];
      match Observe(p, v)
      case Abort => (rows, true)
      case Skip => RunPass(rows, selected[1..], p, now)
      case Count(n) => RunPass(SetVoteCount(rows, v.id, n, now), selected[1..], p, now)
  }

  /** `update_vote_counts`, one firing: select the active votes, then tally
      each in turn. A database error ends the pass with nothing written. */
  function UpdateVoteCounts(t: VoteTable, p: Platform, now: nat): (r: VoteTable)
    ensures r.nextId == t.nextId && r.online == t.online
    ensures |r.rows| == |t.rows|
    ensures forall i :: 0 <= i < |t.rows| ==> SameExceptTally(t.rows[i], r.rows[i])
    ensures !t.online ==> r == t
    ensures UniqueIds(t.rows) ==> UniqueIds(r.rows)
  {
    if !t.online then t
    else t.(rows := RunPass(t.rows, Filter(t.rows, IsActive), p, now).0)
  }

  // ---------------------------------------------------------------------
  // The pass, pointwise

  /** How the pass sees one vote; `activeOnly` folds the selection of
      active votes into the observation. */
  function Observed(p: Platform, v: VoteRow, activeOnly: bool): Observation {
    if activeOnly && !v.isActive then Skip else Observe(p, v)
  }

  /** The tally the pass over `selected` last writes under `id`, if any. */
  function Written(selected: seq<VoteRow>, p: Platform, activeOnly: bool, id: nat): Option<int>
    decreases |selected|
  {
    if |selected| == 0 then None
    else match Observed(p, selected[0], activeOnly)
      case Abort => None
      case Skip => Written(selected[1..], p, activeOnly, id)
      case Count(n) =>
        var later := Written(selected[1..], p, activeOnly, id);
        if later.Some? then later else if selected[0].id == id then Some(n) else None
  }

  function StampWith(v: VoteRow, w: Option<int>, now: nat): VoteRow {
    if w.Some? then Stamp(v, w.value, now) else v
  }

  /** Each row ends up with the last tally written under its id. */
  lemma {:induction false} RunPassPointwise(rows: seq<VoteRow>, selected: seq<VoteRow>, p: Platform, now: nat)
    ensures forall i :: 0 <= i < |rows| ==>
      RunPass(rows, selected, p, now).0[i] == StampWith(rows[i], Written(selected, p, false, rows[i].id), now)
    decreases |selected|
  {
    if |selected| > 0 {
      var v := selected[0];
      match Observe(p, v)
      case Abort =>
      case Skip =>
        RunPassPointwise(rows, selected[1..], p, now);
      case Count(n) =>
        var rows' := SetVoteCount(rows, v.id, n, now);
        RunPassPointwise(rows', selected[1..], p, now);
        forall i | 0 <= i < |rows|
          ensures RunPass(rows, selected, p, now).0[i] == StampWith(rows[i], Written(selected, p, false, rows[i].id), now)
        {
          assert rows'[i].id == rows[i].id;
        }
    }
  }

  /** Selecting the active votes first is the same as skipping the inactive
      ones during the pass. */
  lemma {:induction false} WrittenFilter(xs: seq<VoteRow>, p: Platform, id: nat)
    ensures Written(Filter(xs, IsActive), p, false, id) == Written(xs, p, true, id)
  {
    if |xs| > 0 {
      var f := Filter(xs, IsActive);
      var tail := Filter(xs[1..], IsActive);
      WrittenFilter(xs[1..], p, id);
      assert f == (if IsActive(xs[0]) then [xs[0]] else []) + tail;
      if xs[0].isActive {
        assert f[0] == xs[0] && f[1..] == tail;
      } else {
        assert f == tail;
      }
    }
  }

  /** No vote before index `k` aborts the pass. */
  predicate Reached(xs: seq<VoteRow>, p: Platform, activeOnly: bool, k: nat) {
    forall j :: 0 <= j < k && j < |xs| ==> !Observed(p, xs[j], activeOnly).Abort?
  }

  lemma {:induction false} WrittenAbsent(xs: seq<VoteRow>, p: Platform, activeOnly: bool, id: nat)
    requires forall j :: 0 <= j < |xs| ==> xs[j].id != id
    ensures Written(xs, p, activeOnly, id).None?
  {
    if |xs| > 0 {
      WrittenAbsent(xs[1..], p, activeOnly, id);
    }
  }

  /** With distinct ids, the vote at index `k` gets its own tally exactly
      when the pass reaches it and its message is found. */
  lemma {:induction false} WrittenUnique(xs: seq<VoteRow>, p: Platform, activeOnly: bool, k: nat)
    requires UniqueIds(xs) && k < |xs|
    ensures Written(xs, p, activeOnly, xs[k].id)
      == (if Reached(xs, p, activeOnly, k) && Observed(p, xs[k], activeOnly).Count?
          then Some(Observed(p, xs[k], activeOnly).n) else None)
  {
    var rest := xs[1..];
    assert UniqueIds(rest);
    if k == 0 {
      WrittenAbsent(rest, p, activeOnly, xs[0].id);
    } else {
      WrittenUnique(rest, p, activeOnly, k - 1);
      assert rest[k - 1] == xs[k];
      if Observed(p, xs[0], activeOnly).Abort? {
        assert !Reached(xs, p, activeOnly, k);
      } else {
        assert Reached(xs, p, activeOnly, k) <==> Reached(rest, p, activeOnly, k - 1) by {
          forall j | 0 <= j < k - 1 && j < |rest| ensures rest[j] == xs[j + 1] { }
          if Reached(rest, p, activeOnly, k - 1) {
            forall j | 0 <= j < k && j < |xs| ensures !Observed(p, xs[j], activeOnly).Abort? {
              if j > 0 { assert xs[j] == rest[j - 1]; }
            }
          }
        }
      }
    }
  }

  /** The row the pass leaves at index `i`: an active vote that the pass
      reaches and whose message is found gets the tally, and every other row
      stays as it was. */
  function Expected(rows: seq<VoteRow>, p: Platform, now: nat, i: nat): VoteRow
    requires i < |rows|
  {
    var v := rows[i];
    if v.isActive && Reached(rows, p, true, i) && Observe(p, v).Count? then Stamp(v, Observe(p, v).n, now) else v
  }

  /** The literal pass agrees row by row with `Expected`. */
  lemma UpdateVoteCountsPointwise(t: VoteTable, p: Platform, now: nat)
    requires t.online && UniqueIds(t.rows)
    ensures var r := UpdateVoteCounts(t, p, now);
      forall i :: 0 <= i < |t.rows| ==> r.rows[i] == Expected(t.rows, p, now, i)
  {
    var selected := Filter(t.rows, IsActive);
    RunPassPointwise(t.rows, selected, p, now);
    forall i | 0 <= i < |t.rows|
      ensures UpdateVoteCounts(t, p, now).rows[i] == Expected(t.rows, p, now, i)
    {
      WrittenFilter(t.rows, p, t.rows[i].id);
      WrittenUnique(t.rows, p, true, i);
    }
  }

  /** Consequences: inactive votes, votes whose channel is not visible and
      votes whose message is not found keep their row; an error on one
      active vote leaves every later row untouched. */
  lemma PassLeavesAlone(t: VoteTable, p: Platform, now: nat, i: nat)
    requires t.online && UniqueIds(t.rows) && i < |t.rows|
    ensures var v := t.rows[i];
      (!v.isActive || v.channelId !in p.channels || !Observe(p, v).Count?) ==>
      UpdateVoteCounts(t, p, now).rows[i] == v
    ensures forall j :: 0 <= j < i && t.rows[j].isActive && Observe(p, t.rows[j]).Abort? ==>
      UpdateVoteCounts(t, p, now).rows[i] == t.rows[i]
  {
    UpdateVoteCountsPointwise(t, p, now);
  }

  /** The poller scenario: one active vote whose message carries six ✅
      reactions (five votes plus the bot's own) ends with a count of 5. */
  lemma SixReactionsCountFive(v: VoteRow, now: nat)
    requires v.isActive && v.channelId == 123 && v.messageId == 456
    ensures var t := VoteTable([v], v.id + 1, true);
            var p := Platform(map[123 := map[456 := Found([Reaction(Checkmark, 6)])]]);
            UpdateVoteCounts(t, p, now).rows == [v.(voteCount := 5, updatedAt := now)]
  {
    var t := VoteTable([v], v.id + 1, true);
    assert Filter(t.rows, IsActive) == [v];
  }

  // ---------------------------------------------------------------------
  // create_vote

  datatype TextChannel = TextChannel(id: int, name: string)

  datatype Guild = Guild(textChannels: seq<TextChannel>)

  /** The outcome of each platform call `create_vote` makes, given up
      front: the id a newly created channel would get, the id of the sent
      message, and whether seeding the reaction succeeds. */
  datatype Effects = Effects(newChannel: Option<int>, message: Option<int>, reactionAdded: bool)

  /** The dictionary returned on success. */
  datatype Created = Created(id: nat, channelId: int, messageId: int)

  datatype CreateOutcome = CreateOutcome(guild: Guild, table: VoteTable, created: Option<Created>)

  /** `discord.utils.get(guild.text_channels, name="votes")`. */
  function FindVotesChannel(channels: seq<TextChannel>): (r: Option<TextChannel>)
    ensures r.None? <==> forall i :: 0 <= i < |channels| ==> channels[i].name != VotesChannelName
    ensures r.Some? ==> exists i :: 0 <= i < |channels| && channels[i] == r.value
                           && channels[i].name == VotesChannelName
                           && forall j :: 0 <= j < i ==> channels[j].name != VotesChannelName
  {
    if |channels| == 0 then None
    else if channels[0].name == VotesChannelName then Some(channels[0])
    else
      var r := FindVotesChannel(channels[1..]);
      if r.Some? then
        ghost var i :| 0 <= i < |channels[1..]| && channels[1..][i] == r.value && channels[1..][i].name == VotesChannelName
                       && forall j :: 0 <= j < i ==> channels[1..][j].name != VotesChannelName;
        assert channels[i + 1] == r.value;
        r
      else r
  }

  /** What `json.dumps` writes for a non-finite float. None of these is
      JSON, and an opaque scalar is carried as the text `json.dumps`
      writes for it. */
  const NonFiniteFloats: set<string> := {"NaN", "Infinity", "-Infinity"}

  /** Whether the `$4::jsonb` cast of the INSERT accepts the text
      `json.dumps` writes for `v`. PostgreSQL's jsonb refuses the
      non-finite floats and the escape `\u0000` that a NUL character in a
      string or a key becomes. An unpaired surrogate escape is refused
      too, but a Dafny string cannot hold one, so it has no case here. */
  predicate JsonbAccepts(v: Values.Value) {
    match v
    case Opaque(repr) => repr !in NonFiniteFloats
    case Str(text) => '\0' !in text
    case List(items) => forall i :: 0 <= i < |items| ==> JsonbAccepts(items[i])
    case Dict(entries) => forall i :: 0 <= i < |entries| ==> '\0' !in entries[i].0 && JsonbAccepts(entries[i].1)
    case _ => true
  }

  /** The row `create_vote` inserts: a zero tally, active. */
  function NewVote(id: nat, title: string, imageName: string, imageUrl: string, jsonData: Values.Value,
                   channelId: int, messageId: int, createdBy: int, coordX: int, coordZ: int, now: nat): VoteRow {
    VoteRow(id, title, imageName, imageUrl, jsonData, channelId, messageId, createdBy, coordX, coordZ, 0, true, now, now)
  }

  /** `create_vote`: post the vote in the first channel named "votes"
      (creating it if there is none), seed the ✅ reaction, insert the row.
      The result is present exactly when every step succeeds, the INSERT
      included; the channel created along the way stays even when a later
      step fails. */
  function CreateVote(g: Guild, t: VoteTable, fx: Effects, title: string, imageName: string, imageUrl: string,
                      jsonData: Values.Value, coordX: int, coordZ: int, createdBy: int, now: nat): (o: CreateOutcome)
    ensures FindVotesChannel(g.textChannels).Some? ==> o.guild == g
    ensures FindVotesChannel(g.textChannels).None? ==>
      o.guild.textChannels == g.textChannels + (if fx.newChannel.Some? then [TextChannel(fx.newChannel.value, VotesChannelName)] else [])
    ensures o.created.Some? <==>
      && (FindVotesChannel(g.textChannels).Some? || fx.newChannel.Some?)
      && fx.message.Some? && fx.reactionAdded && t.online && JsonbAccepts(jsonData)
    ensures o.created.Some? ==>
      && FindVotesChannel(o.guild.textChannels) == Some(TextChannel(o.created.value.channelId, VotesChannelName))
      && o.created.value.id == t.nextId
      && o.created.value.messageId == fx.message.value
      && o.table == t.(rows := t.rows + [NewVote(t.nextId, title, imageName, imageUrl, jsonData,
                                                 o.created.value.channelId, fx.message.value, createdBy, coordX, coordZ, now)],
                       nextId := t.nextId + 1)
    ensures o.created.None? ==> o.table == t
  {
    var found := FindVotesChannel(g.textChannels);
    var (guild, channel) :=
      if found.Some? then (g, found)
      else if fx.newChannel.Some? then
        var c := TextChannel(fx.newChannel.value, VotesChannelName);
        assert FindVotesChannel(g.textChannels + [c]) == Some(c) by {
          var cs := g.textChannels + [c];
          assert cs[|g.textChannels|] == c;
        }
        (Guild(g.textChannels + [c]), Some(c))
      else (g, None);
    if channel.None? || fx.message.None? || !fx.reactionAdded || !t.online || !JsonbAccepts(jsonData) then
      CreateOutcome(guild, t, None)
    else
      var row := NewVote(t.nextId, title, imageName, imageUrl, jsonData, channel.value.id, fx.message.value,
                         createdBy, coordX, coordZ, now);
      CreateOutcome(guild, t.(rows := t.rows + [row], nextId := t.nextId + 1),
                    Some(Created(t.nextId, channel.value.id, fx.message.value)))
  }

  /** The votes channel is created at most once: a second vote goes to the
      channel the first attempt created, even when that attempt failed
      after creating it, and the guild does not change. */
  lemma CreateVoteReusesChannel(g: Guild, t: VoteTable, fx1: Effects, fx2: Effects, title: string, imageName: string,
                                imageUrl: string, jsonData: Values.Value, coordX: int, coordZ: int, createdBy: int, now: nat)
    requires FindVotesChannel(g.textChannels).None?
    ensures var o1 := CreateVote(g, t, fx1, title, imageName, imageUrl, jsonData, coordX, coordZ, createdBy, now);
            var o2 := CreateVote(o1.guild, o1.table, fx2, title, imageName, imageUrl, jsonData, coordX, coordZ, createdBy, now);
            o1.created.Some? && o2.created.Some? ==>
              o2.guild == o1.guild && o2.created.value.channelId == o1.created.value.channelId
    ensures var o1 := CreateVote(g, t, fx1, title, imageName, imageUrl, jsonData, coordX, coordZ, createdBy, now);
            var o2 := CreateVote(o1.guild, o1.table, fx2, title, imageName, imageUrl, jsonData, coordX, coordZ, createdBy, now);
            fx1.newChannel.Some? ==>
              && o2.guild == o1.guild
              && (o2.created.Some? ==> o2.created.value.channelId == fx1.newChannel.value)
  {
    var o1 := CreateVote(g, t, fx1, title, imageName, imageUrl, jsonData, coordX, coordZ, createdBy, now);
    if fx1.newChannel.Some? {
      var cs := o1.guild.textChannels;
      assert cs == g.textChannels + [TextChannel(fx1.newChannel.value, VotesChannelName)];
      assert forall i :: 0 <= i < |g.textChannels| ==> cs[i].name != VotesChannelName;
      assert cs[|g.textChannels|].name == VotesChannelName;
      assert FindVotesChannel(cs) == Some(TextChannel(fx1.newChannel.value, VotesChannelName));
    }
  }
}
